=== FILE: README.md ===
# jobly models in Dafny

This project models the data layer of *jobly*, a small job-board REST API. The
layer has three model classes, each over one PostgreSQL table:

- `Company` over `companies`;
- `Job` over `jobs`;
- `User` over `users`.

It also models `sqlForPartialUpdate`, the helper that turns a sparse set of
fields into a parameterised `UPDATE` statement.

The database is modelled as in-memory tables. A table is a map from the key
column's value to the row, and a row is a map from column names to SQL values.
Each statement the models issue becomes a function on that map:

- `INSERT ... RETURNING *` enforces the table's NOT NULL key and UNIQUE columns;
- `UPDATE ... SET ... WHERE key=$n RETURNING *` reports a syntax error for an empty SET list, an undefined-column error for an unknown column, and a duplicate-assignment error for a column assigned twice;
- `DELETE ... RETURNING *` is a plain keyed delete;
- `SELECT` is a filter and a projection.

The read operations (`search`, `get`, `getAll`) are functions of the table.
The mutating operations (`create`, `update`, `delete`) are methods of a class
per table. That class holds the rows, and for `jobs` also the id sequence.
Every method is specified against the statement functions, and the table
invariant (keyed rows, unique columns) is proved to be preserved.

The files are:

- `sql_values.dfy`: SQL values, rows, store errors, and the `Result`/`Option` wrappers.
- `decimal.dfy`: decimal rendering of placeholder numbers, with its inverse.
- `like.dfy`: an `ILIKE` matcher. It supports `%`, `_` and the `\` escape, and ignores ASCII case.
- `partial_update.dfy`: the partial-update statement builder.
- `update_text.dfy`: how the store reads a built `UPDATE` statement back into a table, a SET list, a key column and a key value.
- `table.dfy`: the keyed table and the INSERT, UPDATE, DELETE and SELECT statements.
- `companies.dfy`, `jobs.dfy`, `users.dfy`: the three model classes.

Where the tests and the code disagree, the model follows the code:

- `User.create` raises "Username or email taken." (models/user.js:22). The unit test expects "Username already taken.".
- `User.get` of an absent username returns an empty list (models/user.js:59-61), modelled as `None`. The unit test expects an error.
- The "updates a username to one that exists" test (__tests__/unit/user.test.js:122-130) expects "Username already exists.". `User.update` has no such message: a unique violation reaches the caller as the store's own error, and an absent username gives "Job not found." (models/user.js:77-79). The seeded users hold only `testy`, so the call on `user2` takes the second path.
- Two places in `models/user.js` behave differently from what the tests and the messages intend. They are listed under Findings. Each is modelled as written, beside the corrected version.

## Model

| member | source | states |
|---|---|---|
| PartialUpdate.Fields | __tests__/integration/jobsRoutes.test.js:161-178 | the fields kept are exactly the items whose name does not start with `_`; a single `_` item is dropped, and a list without one is unchanged |
| PartialUpdate.FieldsAppend | __tests__/integration/jobsRoutes.test.js:161-178 | filtering a list filters its halves and joins the results, so the kept items keep their order |
| PartialUpdate.FieldsFollowColumns | __tests__/integration/jobsRoutes.test.js:161-178 | which items are kept depends on their names only |
| PartialUpdate.SqlForPartialUpdate | __tests__/unit/partialUpdate.test.js:4-23 | there is one value per kept field, in item order, and the key value comes last; the text starts `UPDATE <table> SET ` and ends ` WHERE <key>=$<last> RETURNING *` |
| PartialUpdate.Assignments | __tests__/unit/partialUpdate.test.js:11 | the i-th SET assignment is `<column i>=$<first+i>` |
| PartialUpdate.EachPlaceholderBindsItsItem | __tests__/unit/partialUpdate.test.js:28-33 | placeholder `$(i+1)` sits next to the i-th kept column and is bound to the i-th kept value; no other placeholder in the statement has the same number |
| PartialUpdate.QueryIgnoresValues | __tests__/unit/partialUpdate.test.js:28-33 | the statement text depends only on the table, the column names and the key column; no value is spliced into the SQL |
| PartialUpdate.GoogleUpdateExample | __tests__/unit/partialUpdate.test.js:5-13 | `{name: 'Google', num_employees: 50}` keyed by handle gives exactly the expected text and values |
| PartialUpdate.FacebookUpdateExample | __tests__/unit/partialUpdate.test.js:15-23 | `{name: 'Facebook', description: ...}` keyed by handle `FB` gives exactly the expected text and values |
| PartialUpdate.CompaniesPairText | __tests__/unit/partialUpdate.test.js:4-23 | any two-item update of `companies` whose first column is `name`, keyed by handle, is `UPDATE companies SET name=$1, <second>=$2 WHERE handle=$3 RETURNING *` with the two item values and the key |
| UpdateText.ReadUpdate | models/company.js:89 | (no contract) what the store reads from a statement and its values: the table, the SET list with each `$n` replaced by the n-th bound value, the key column and the WHERE value; None for text it cannot read, which `Table.Execute` reports as a syntax error |
| UpdateText.ReadFrameBuilt | models/company.js:88-89 | whatever the SET list holds, the store reads back the builder's table, key column and WHERE placeholder number from the fixed words around it |
| UpdateText.ReadSetList | models/company.js:88-89 | a SET list built from plainly named fields is read as their columns numbered from the first placeholder |
| UpdateText.BindNumbered | models/company.js:88-89 | binding the fields' placeholders, numbered after any values bound before them, to the statement's values gives back exactly the fields, values included |
| UpdateText.ReadBuilt | models/company.js:88-89 | a built statement with no kept field cannot be read (an empty SET list); with plainly named kept fields it denotes exactly those (column, value) pairs on the builder's table, and its WHERE placeholder binds the key value |
| UpdateText.ReadBuiltFrame | models/company.js:88-89 | whatever the items, a readable built statement names the builder's table, its key column and the key value |
| Decimal.Show | __tests__/unit/partialUpdate.test.js:11 | a placeholder number is rendered as a non-empty run of digits with no leading zero |
| Decimal.ReadShow | __tests__/unit/partialUpdate.test.js:11 | reading back a rendered number gives the number, so placeholder numbers can be told apart |
| Decimal.ShowInjective | __tests__/unit/partialUpdate.test.js:11 | distinct numbers render differently |
| Like.ILike | models/company.js:30-31 | `s ILIKE p`; a pattern without `%`, `_` or `\` matches exactly the strings equal to it up to ASCII case |
| Like.HasTerm | models/company.js:19 | (no contract) a term is used only when it is given and non-empty, as `!search` decides in both searches (models/job.js:14 too) |
| Like.Pattern | models/company.js:31 | (no contract) the value bound to ILIKE: the term wrapped in `%` on both sides, as both searches build it (models/job.js:26 too) |
| Like.PercentMatchesAll | models/company.js:30-31 | the pattern `%` matches every string |
| Like.PlainPrefix | models/company.js:30-31 | for a term without metacharacters, `s ILIKE t%` holds exactly when `s` starts with `t`, ignoring case |
| Like.LeadingPercent | models/company.js:30-31 | `s ILIKE %q` holds exactly when some suffix of `s` matches `q` |
| Like.SubstringPattern | models/job.js:25-26 | for a term without metacharacters, `s ILIKE %t%` holds exactly when `t` occurs in `s`, ignoring case |
| Like.TermMatchesItself | models/job.js:25-26 | a term without metacharacters matches `%term%` built from itself |
| Like.FacebookMatchesFace | __tests__/unit/company.test.js:48-52 | `Facebook` matches `%face%` |
| Like.TwitchMissesFace | models/company.js:30-31 | `Twitch` does not match `%face%` |
| SqlValues.TextOrNull | models/company.js:47-53 | an omitted argument is stored as NULL, and only then; a given text `t` is stored as `t` |
| SqlValues.IntOrNull | models/company.js:47-53 | an omitted count is stored as NULL, and only then; a given count `n` is stored as `n` |
| SqlValues.Project | models/company.js:21 | a projection holds exactly the selected columns the row has, with the row's values |
| Table.Patch | models/company.js:87-89 | the SET list gives the named columns their item values and leaves every other column unchanged |
| Table.StatementError | models/company.js:88-89 | an UPDATE is rejected before touching any row exactly when the SET list is empty, names an unknown column, or names a column twice |
| Table.UpdateByKey | models/company.js:87-96 | no row is found exactly when the statement is well formed and the key is absent; a found row takes the item values, keeps its other columns, and no other row changes |
| Table.Insert | models/company.js:49-54 | an INSERT succeeds exactly when its key is non-null and no UNIQUE column clashes; the new row is then filed under its key |
| Table.DeleteByKey | models/company.js:104-109 | a DELETE removes exactly the keyed row and returns it; an absent key affects no row |
| Table.Select | models/company.js:20-25 | the result holds one projected row per stored row that passes the WHERE clause, and no other |
| Table.InsertKeepsValid | models/company.js:49-54 | a successful INSERT keeps rows keyed and UNIQUE columns distinct |
| Table.AddKeepsValid | models/company.js:49-54 | filing a complete, non-clashing row under its own non-null key keeps the table valid |
| Table.UpdateKeepsValid | models/company.js:88-89 | a successful UPDATE keeps rows keyed and UNIQUE columns distinct |
| Table.DeleteKeepsValid | models/company.js:104-109 | a DELETE keeps the table invariant |
| Table.PatchIdempotent | models/company.js:87-96 | applying the same SET list twice equals applying it once |
| Table.UpdateIdempotent | models/company.js:87-96 | repeating a successful update at the row's new key returns the same row and leaves the same table |
| Table.Execute | models/company.js:89 | text the store cannot read fails with a syntax error; otherwise the outcome is the keyed update the text denotes, which finds no row only when the key it names is absent |
| Table.BuiltTargets | models/company.js:88-89 | a built statement, when readable, updates the table it was built for, filtered by its key column at the given key |
| Table.ExecuteBuilt | models/company.js:88-89 | running the built statement is the keyed update with the kept fields, whenever they are plainly named |
| Table.ExecuteKeepsValid | models/company.js:89 | a successful statement keeps rows keyed and UNIQUE columns distinct |
| Table.UpdateOneColumn | models/user.js:73-75 | setting one column outside every UNIQUE constraint on a stored row always succeeds and changes that one cell only |
| Table.UpdateOutsideUnique | models/job.js:90-91 | a well-formed SET list that names no UNIQUE column always updates a stored row: the row is patched in place and no other row changes |
| Companies.Low | models/company.js:14 | (no contract) `min_employees` defaults to 0 |
| Companies.High | models/company.js:14 | (no contract) `max_employees` defaults to 80000000 |
| Companies.Selects | models/company.js:19-33 | (no contract) the WHERE clause of either statement on a row with its bound values: sizes within the inclusive bounds, and for the second statement the name ILIKE the pattern; NULL passes no comparison |
| Companies.Matches | models/company.js:19-33 | (no contract) the rows a company search stands for: num_employees within the inclusive bounds and, when a non-empty term is given, a name matching `%term%` up to case; `Companies.Search` and `Companies.StatementSelectsMatches` are stated against it |
| Companies.SearchStatement | models/company.js:14-33 | the range error is raised exactly when min > max (defaults 0 and 80000000); otherwise both bounds are bound last, after `%term%` when a non-empty term is given |
| Companies.StatementSelectsMatches | models/company.js:19-33 | the issued statement keeps a row exactly when num_employees lies within the inclusive bounds and, for a term, the name matches `%term%` |
| Companies.PlainTermMatches | models/company.js:27-31 | for a term without metacharacters, the name test is a case-insensitive substring test |
| Companies.Search | models/company.js:14-40 | the range error comes first; otherwise the matching rows are returned, projected to handle and name, or "No companies found." when none match; nothing else can happen |
| Companies.RangeCheckedBeforeQuery | models/company.js:15-17 | an invalid range fails the same way whatever the table holds |
| Companies.Get | models/company.js:65-79 | returns the stored row when the handle is present, otherwise "Company not found." |
| Companies.NewCompany | models/company.js:47-53 | the inserted row holds all five columns: the handle and name as given, and num_employees, description and logo_url as given or NULL exactly when omitted |
| Companies.ClashMeansTaken | models/company.js:56-58 | a new company clashes exactly when its handle or its name is already stored |
| Companies.SeededFacts | __tests__/unit/company.test.js:13-30 | the seeded rows have the test's sizes and names |
| Companies.SearchBothScenario | __tests__/unit/company.test.js:43-46 | on the seeded sizes and names, with no arguments (bounds 0..80000000, no term), both companies are found |
| Companies.SearchFaceScenario | __tests__/unit/company.test.js:48-52 | on the seeded sizes and names, `face` with bounds 10000..50000 finds Facebook only |
| Companies.SearchRangeScenario | __tests__/unit/company.test.js:54-58 | bounds 10000..9000 are rejected |
| Companies.CompanyTable.constructor | models/company.js:6 | the table starts empty and valid |
| Companies.CompanyTable.Create | models/company.js:47-59 | succeeds exactly when the handle and the name are both free, and the new row can then be read back; any failure is "Company handle/name already exists" and changes nothing |
| Companies.UpdateStatement | models/company.js:88 | the statement built for a handle, whenever readable, updates `companies` at that handle |
| Companies.CompanyTable.Update | models/company.js:87-96 | the outcome is the store's on the built statement; "Company not found." only for an absent handle; with kept fields named by lower-case identifiers, the run is the keyed update with those fields, "Company not found." exactly when the SET list is well formed and the handle is absent, and only the kept fields' columns of the keyed row change |
| Companies.CompanyTable.Delete | models/company.js:103-116 | removes exactly the keyed row and answers "Company deleted"; an absent handle gives "Company not found." and changes nothing |
| Jobs.Min | models/job.js:12 | (no contract) `min_salary` and `min_equity` default to 0 |
| Jobs.Selects | models/job.js:14-28 | (no contract) the WHERE clause of either statement on a row with its bound values: salary and equity at least their minimums, and for the second statement the title ILIKE the pattern; NULL passes no comparison |
| Jobs.Matches | models/job.js:14-28 | (no contract) the rows a job search stands for: salary and equity at least their minimums and, when a non-empty term is given, a title matching `%term%` up to case; `Jobs.Search` and `Jobs.StatementSelectsMatches` are stated against it |
| Jobs.SearchStatement | models/job.js:12-28 | both minimums (default 0) are bound last, after `%term%` when a non-empty term is given; no search is ever rejected |
| Jobs.StatementSelectsMatches | models/job.js:14-28 | the issued statement keeps a row exactly when salary and equity are at least their minimums and, for a term, the title matches `%term%` |
| Jobs.PlainTermMatches | models/job.js:22-26 | for a term without metacharacters, the title test is a case-insensitive substring test |
| Jobs.Search | models/job.js:12-35 | the matching rows, projected to title and company_handle, or "Job not found." exactly when none match |
| Jobs.SearchMonotone | models/job.js:18-25 | raising a minimum never adds a row to the result |
| Jobs.SearchFinds | models/job.js:12-35 | when exactly the rows in a non-empty set of stored keys match, the search returns exactly those keys |
| Jobs.Get | models/job.js:66-80 | returns the stored row when the id is present, otherwise "Job not found." |
| Jobs.NewJob | models/job.js:51-56 | the inserted row holds the given fields, the sequence's id and the current time |
| Jobs.ClashMeansIdTaken | models/job.js:51-56 | a new job clashes exactly when its id is already stored |
| Jobs.SearchNoParametersScenario | __tests__/unit/job.test.js:68-75 | with no arguments, all three seeded jobs are found |
| Jobs.SearchAllParametersScenario | __tests__/unit/job.test.js:77-81 | `CEO` with minimums 60000 and 0.01 finds the CEO only |
| Jobs.SeededFacts | __tests__/unit/job.test.js:32-55 | the seeded rows have the test's salaries, equities and CEO title |
| Jobs.SearchSalaryScenario | __tests__/unit/job.test.js:83-87 | a minimum salary of 80000 finds the engineer and the CEO |
| Jobs.UpdateInternScenario | __tests__/integration/jobsRoutes.test.js:161-179 | on the seeded jobs, a title, a salary of 55000 and an equity of 0 sent with a `_token` update the intern's row to exactly those three values, keeping its id, company and posting date, and leave the other rows as they were |
| Jobs.RepostedJob | models/job.js:89-98 | on any valid table, a SET list whose kept fields are the title, the salary and the equity sets exactly those three columns of the stored job and changes nothing else |
| Jobs.Repriced | models/job.js:89-98 | patching a job row with a title, a salary and an equity gives the job with those three values and the same id, company and posting date |
| Jobs.TokenDropped | __tests__/integration/jobsRoutes.test.js:163-168 | a trailing `_token` item is left out of the SET list and the title, salary and equity items before it are kept in order |
| Jobs.SearchEquityScenario | __tests__/unit/job.test.js:89-93 | a minimum equity of 0.01 finds the CEO only |
| Jobs.JobTable.constructor | models/job.js:5 | the table starts empty, with the sequence at 1 |
| Jobs.Posted | models/job.js:43-50 | (no contract) a stored row holds the given title and company handle, the condition of the duplicate check that raises "Job already posted." |
| Jobs.JobTable.Create | models/job.js:42-59 | an existing (title, company_handle) pair gives "Job already posted." and changes nothing; otherwise the next id is drawn; it succeeds exactly when the pair is new and the id is free, and the row can then be read back |
| Jobs.UpdateStatement | models/job.js:90 | the statement built for an id, whenever readable, updates `jobs` at that id |
| Jobs.JobTable.Update | models/job.js:89-98 | the outcome is the store's on the built statement; "Job not found." only for an absent id; with kept fields named by lower-case identifiers, the run is the keyed update with those fields, "Job not found." exactly when the SET list is well formed and the id is absent, and only the kept fields' columns change; the id sequence is not touched |
| Jobs.JobTable.Delete | models/job.js:106-119 | removes exactly the keyed row and answers "Job deleted"; an absent id gives "Job not found." |
| Users.NewUser | models/user.js:25-31 | the inserted row holds the given names and email, the hashed password, the photo URL or NULL exactly when it is omitted, and is_admin false |
| Users.ClashMeansEmailTaken | models/user.js:27-32 | with the username free, a new user clashes exactly when its email is already stored |
| Users.ProjectionKeys | models/user.js:42 | a projection of a stored row holds exactly the selected columns |
| Users.GetAll | models/user.js:41-44 | one row per user, holding exactly username, first_name, last_name and email; never an error |
| Users.Get | models/user.js:51-64 | the five-field profile, without the password, when the username is present; otherwise `None` (the empty list) |
| Users.DeleteFrom | models/user.js:91-96 | `DELETE FROM user` is a syntax error; `DELETE FROM users` is the keyed delete |
| Users.DeleteAsWrittenRemovesNothing | models/user.js:90-102 | as written, deleting a stored user fails and removes nothing; on `users` the same call removes the row |
| Users.UpdateStatement | models/user.js:74 | the statement built for a username, whenever readable, updates `users` at that username |
| Users.UpdateLastNameScenario | __tests__/unit/user.test.js:106-120 | running the built statement that sets testy's last name returns the whole row, password and is_admin included, with only the last name changed |
| Users.SetOneColumn | models/user.js:73-75 | the built statement setting one plainly named column outside every UNIQUE constraint changes that one cell of a stored user and no other row |
| Users.UserTable.constructor | models/user.js:7 | the table starts empty and valid |
| Users.UserTable.Create | models/user.js:14-34 | a stored username gives "Username or email taken." and changes nothing; otherwise it succeeds exactly when the email is free too; it stores `hash(password)` and returns the profile without the password; an email clash is the store's unique violation |
| Users.UserTable.Update | models/user.js:73-82 | the outcome is the store's on the built statement; the whole row is returned; "User not found." only for an absent username, and, with kept fields named by lower-case identifiers, exactly when the SET list is well formed and the username is absent |
| Users.UserTable.UpdateAsWritten | models/user.js:73-82 | the same outcome, but an absent username gives "Job not found." and never "User not found." |
| Users.UserTable.ApplyDelete | models/user.js:98-102 | a statement error is passed on unchanged; otherwise the keyed row is removed and "User deleted" answered, or "User not found." when there was no row |
| Users.UserTable.DeleteAsWritten | models/user.js:90-102 | every call fails with a syntax error and the table is unchanged |
| Users.UserTable.Delete | models/user.js:90-102 | on `users`: removes exactly the keyed row and answers "User deleted"; an absent username gives "User not found." |

## Left out

- `helpers/partialUpdate.js` is not part of this model. The builder is modelled from its unit test and the call sites: items in object-key order, `$1..$N` for the items, `$N+1` for the key.
- PartialUpdate.Fields: dropping the items whose name starts with `_` is inferred, not read from the helper. The routes pass the whole request body, `_token` included (routes/jobs.js:82-93), and the integration tests expect those updates to succeed (__tests__/integration/jobsRoutes.test.js:161-178, __tests__/integration/usersRoutes.test.js:161-178), which a `_token` column would not allow.
- The builder takes items as an ordered list of (column, value) pairs, not a JavaScript object. The keys of an object are distinct; the list may repeat a column, and the table model rejects that statement.
- Column names and the table name are spliced into the SQL verbatim. The store reads the statement back as whatever the text says (`UpdateText.ReadUpdate`), so a column name holding `=`, `,` or a space changes what the statement denotes. The model proves what the statement does only when every kept name is plain (`UpdateText.Named`); for other names it promises only what holds for any text.
- Table.StatementError: column names are compared exactly. PostgreSQL folds an unquoted name to lower case, so `SET Description=$1` sets `description`, where the model reports an undefined column.
- Companies.CompanyTable.Update: the exactly-when and only-these-columns clauses are stated only for kept fields named by lower-case identifiers (`UpdateText.Identifiers`), because of the two lines above; for other names only the not-found direction and the key are promised.
- Jobs.JobTable.Update: the exactly-when and only-these-columns clauses are stated only for kept fields named by lower-case identifiers; for other names only the not-found direction and the key are promised.
- Users.UserTable.Update: the exactly-when and the whole-row clauses are stated only for kept fields named by lower-case identifiers; for other names only the not-found direction and the key are promised.
- Users.UserTable.UpdateAsWritten: the exactly-when clause is stated only for kept fields named by lower-case identifiers; for other names only the message and the key are promised.
- UpdateText.ReadUpdate reads only the shape the builder writes (single spaces, no quoting, no comments). Any other text, and a placeholder number with no bound value, is reported as a syntax error; PostgreSQL's distinct error for a missing parameter is not modelled.
- Omitted create arguments: JavaScript passes `undefined` for them, which binds NULL, so `Company.create` without a name violates NOT NULL and reports "Company handle/name already exists" (models/company.js:56-58). The model types handle, name, and the user's first_name, last_name and email as strings that are always given, so this path is not reachable in it.
- Statement text is compared with its whitespace normalised to single spaces. The source's multi-line template literals are not reproduced character for character.
- Result order is not modelled. A result is a map keyed by the primary key, as SQL gives no order without `ORDER BY`.
- Like.Fold: case folding covers ASCII letters only, not PostgreSQL's locale-dependent folding.
- Column types, CHECK constraints and the `company_handle` foreign key (with its cascade) are not enforced. `jobs.company_handle` may name a company that is not stored.
- Values are not converted to their column's type on write. A salary set to the integer 70000 stays an integer in the model, and `Jobs.Search` compares salaries and equities only when they are numeric, so that job is never found; PostgreSQL would store 70000 as a numeric salary and find it.
- NOT NULL is enforced on the key column only. The schema's other non-nullable columns (`companies.name`, and every user column but `photo_url`) may be set to NULL by an `UPDATE` in the model, where PostgreSQL rejects it.
- Store failures other than those listed in `StoreError` are not modelled: connection loss, type coercion errors, and the like.
- Companies.Search: bounds are integers. JavaScript would also accept fractional or string bounds, which the routes coerce.
- The route handlers, JSON-schema validation, mapping errors to HTTP statuses, authentication, bcrypt and JWT signing are not modelled. The password hash is a function parameter of `Users.UserTable.Create`.
- async/await and the database connection are not modelled. Each statement is one atomic step on the table.
- `date_posted` is the `now` parameter of `Jobs.JobTable.Create`, not a clock read.
- Jobs.JobTable.Create: the `id` sequence is a counter field that the insert advances even when it fails, as a PostgreSQL sequence does. The model does not say how the seed's explicit id 9999999 interacts with later draws beyond the unique violation.

## Findings

| source | as written | input that shows it | evidently intended | confidence | as-written member | corrected member |
|---|---|---|---|---|---|---|
| models/user.js:77-79 | an absent username in `User.update` raises "Job not found." | `User.update('notrealuser', {first_name: 'burrito'})` on any table without that user | "User not found.", as __tests__/unit/user.test.js:132-140 expects | high (not executed) | Users.UserTable.UpdateAsWritten | Users.UserTable.Update |
| models/user.js:90-102 | `DELETE FROM user WHERE username = $1` names the reserved word `user`, which PostgreSQL rejects, so no user is ever deleted | `User.delete('testy')` with testy stored (__tests__/unit/user.test.js:146-151) | `DELETE FROM users ...`, removing the row and answering "User deleted" | high (not executed) | Users.DeleteAsWrittenRemovesNothing | Users.UserTable.Delete |

=== FILE: companies.dfy ===
/** The Company model: range search, get, and the create/update/delete statements on `companies`. */
module Companies {
  import opened SqlValues
  import opened PartialUpdate
  import Table
  import UpdateText
  import Like

  /** Ceiling substituted for a missing `max_employees`. */
  const MAX_COMPANY_SIZE: int := 80000000

  const RANGE_INVALID := "Min employees must be less than max employees."
  const NONE_FOUND := "No companies found."
  const NOT_FOUND := "Company not found."
  const ALREADY_EXISTS := "Company handle/name already exists"
  const DELETED := "Company deleted"

  const COLUMNS: set<string> := {"handle", "name", "num_employees", "description", "logo_url"}
  const SCHEMA := Table.Schema("companies", "handle", COLUMNS, {"handle", "name"})

  /** The columns a search returns. */
  const LISTED: set<string> := {"handle", "name"}

  const BY_SIZE := "SELECT handle, name FROM companies WHERE num_employees >= $1 AND num_employees <= $2;"
  const BY_NAME_AND_SIZE := "SELECT handle, name FROM companies WHERE name ILIKE $1 AND num_employees >= $2 AND num_employees <= $3;"

  /** `min_employees` after its default. */
  function Low(minEmployees: Option<int>): int {
    match minEmployees
    case None => 0
    case Some(n) => n
  }

  /** `max_employees` after its default. */
  function High(maxEmployees: Option<int>): int {
    match maxEmployees
    case None => MAX_COMPANY_SIZE
    case Some(n) => n
  }

  /**
    * The statement a search issues, or the range error it raises before
    * issuing any. Both bounds are always bound, last; the pattern comes first
    * when there is a term.
    */
  function SearchStatement(search: Option<string>, minEmployees: Option<int>, maxEmployees: Option<int>): (r: Result<Query>)
    ensures r.Err? <==> Low(minEmployees) > High(maxEmployees)
    ensures r.Err? ==> r.failure == Thrown(RANGE_INVALID)
    ensures r.Ok? ==> |r.value.values| == (if Like.HasTerm(search) then 3 else 2)
    ensures r.Ok? ==> r.value.values[|r.value.values| - 2..] == [Int(Low(minEmployees)), Int(High(maxEmployees))]
    ensures r.Ok? && Like.HasTerm(search) ==> r.value.values[0] == Text(Like.Pattern(search.value))
  {
    var lo, hi := Low(minEmployees), High(maxEmployees);
    if lo > hi then Err(Thrown(RANGE_INVALID))
    else if !Like.HasTerm(search) then Ok(Query(BY_SIZE, [Int(lo), Int(hi)]))
    else Ok(Query(BY_NAME_AND_SIZE, [Text(Like.Pattern(search.value)), Int(lo), Int(hi)]))
  }

  /** `v >= lo AND v <= hi` on a bound pair; NULL satisfies no comparison. */
  predicate SizeBetween(v: Value, lo: Value, hi: Value) {
    v.Int? && lo.Int? && hi.Int? && lo.whole <= v.whole <= hi.whole
  }

  /** The WHERE clause of either search statement, evaluated on a stored row with the bound values. */
  predicate Selects(q: Query, row: Row) {
    && "num_employees" in row && "name" in row
    && if q.query == BY_SIZE && |q.values| == 2 then
         SizeBetween(row["num_employees"], q.values[0], q.values[1])
       else if q.query == BY_NAME_AND_SIZE && |q.values| == 3 then
         Like.ValueLike(row["name"], q.values[0]) && SizeBetween(row["num_employees"], q.values[1], q.values[2])
       else false
  }

  /**
    * The rows a search stands for: num_employees within the inclusive bounds
    * and, when a term is given, a name matching `%term%` up to case.
    */
  predicate Matches(row: Row, search: Option<string>, lo: int, hi: int) {
    && "num_employees" in row && "name" in row
    && row["num_employees"].Int? && lo <= row["num_employees"].whole <= hi
    && (Like.HasTerm(search) ==> row["name"].Text? && Like.ILike(row["name"].text, Like.Pattern(search.value)))
  }

  /** Each statement keeps exactly the rows the search stands for. */
  lemma StatementSelectsMatches(search: Option<string>, minEmployees: Option<int>, maxEmployees: Option<int>, row: Row)
    requires SearchStatement(search, minEmployees, maxEmployees).Ok?
    ensures Selects(SearchStatement(search, minEmployees, maxEmployees).value, row)
        <==> Matches(row, search, Low(minEmployees), High(maxEmployees))
  {
  }

  /** For a term free of LIKE metacharacters, the name test is a case-insensitive substring test. */
  lemma PlainTermMatches(row: Row, term: string, lo: int, hi: int)
    requires Like.Plain(term) && term != ""
    requires "num_employees" in row && "name" in row && row["name"].Text?
    ensures Matches(row, Some(term), lo, hi)
        <==> row["num_employees"].Int? && lo <= row["num_employees"].whole <= hi
             && Like.ContainsFolded(row["name"].text, term)
  {
    Like.SubstringPattern(row["name"].text, term);
  }

  /**
    * `Company.search`: the range error first, then the matching rows projected
    * to handle and name, or "No companies found." when there are none.
    */
  function Search(rows: Table.Rows, search: Option<string>, minEmployees: Option<int>, maxEmployees: Option<int>)
    : (r: Result<Table.Rows>)
    ensures r == Err(Thrown(RANGE_INVALID)) <==> Low(minEmployees) > High(maxEmployees)
    ensures r.Ok? ==> r.value != map[]
    ensures r.Ok? ==> forall k :: k in r.value <==> k in rows && Matches(rows[k], search, Low(minEmployees), High(maxEmployees))
    ensures r.Ok? ==> forall k :: k in r.value ==> r.value[k] == Project(rows[k], LISTED)
    ensures r == Err(Thrown(NONE_FOUND))
        <==> Low(minEmployees) <= High(maxEmployees)
             && forall k :: k in rows ==> !Matches(rows[k], search, Low(minEmployees), High(maxEmployees))
    ensures r.Ok? || r == Err(Thrown(RANGE_INVALID)) || r == Err(Thrown(NONE_FOUND))
  {
    match SearchStatement(search, minEmployees, maxEmployees)
    case Err(f) => Err(f)
    case Ok(q) =>
      var found := Table.Select(rows, row => Selects(q, row), LISTED);
      assert forall k :: k in found <==> k in rows && Matches(rows[k], search, Low(minEmployees), High(maxEmployees)) by {
        forall k ensures k in found <==> k in rows && Matches(rows[k], search, Low(minEmployees), High(maxEmployees)) {
          if k in rows {
            StatementSelectsMatches(search, minEmployees, maxEmployees, rows[k]);
          }
        }
      }
      if |found| == 0 then
        assert forall k :: k in rows ==> !Matches(rows[k], search, Low(minEmployees), High(maxEmployees)) by {
          forall k | k in rows ensures !Matches(rows[k], search, Low(minEmployees), High(maxEmployees)) {
            assert k !in found;
          }
        }
        Err(Thrown(NONE_FOUND))
      else
        assert found != map[];
        Ok(found)
  }

  /** The range check needs no table: an invalid range fails the same way whatever is stored. */
  lemma RangeCheckedBeforeQuery(rows1: Table.Rows, rows2: Table.Rows, search: Option<string>, minEmployees: Option<int>, maxEmployees: Option<int>)
    requires Low(minEmployees) > High(maxEmployees)
    ensures Search(rows1, search, minEmployees, maxEmployees) == Search(rows2, search, minEmployees, maxEmployees)
  {
  }

  /** `Company.get`: the full stored row, or "Company not found.". */
  function Get(rows: Table.Rows, handle: string): (r: Result<Row>)
    ensures r.Ok? <==> Text(handle) in rows
    ensures r.Ok? ==> r.value == rows[Text(handle)]
    ensures r.Err? ==> r.failure == Thrown(NOT_FOUND)
  {
    if Text(handle) in rows then Ok(rows[Text(handle)]) else Err(Thrown(NOT_FOUND))
  }

  /** The row `INSERT INTO companies VALUES ($1, ..., $5)` stores; omitted arguments are NULL. */
  function NewCompany(handle: string, name: string, numEmployees: Option<int>, description: Option<string>, logo: Option<string>)
    : (r: Row)
    ensures r.Keys == COLUMNS
    ensures r["handle"] == Text(handle) && r["name"] == Text(name)
    ensures (r["num_employees"] == Null <==> numEmployees.None?) && (r["logo_url"] == Null <==> logo.None?)
    ensures r["description"] == Null <==> description.None?
    ensures numEmployees.Some? ==> r["num_employees"] == Int(numEmployees.value)
    ensures description.Some? ==> r["description"] == Text(description.value)
    ensures logo.Some? ==> r["logo_url"] == Text(logo.value)
  {
    map["handle" := Text(handle), "name" := Text(name), "num_employees" := IntOrNull(numEmployees),
        "description" := TextOrNull(description), "logo_url" := TextOrNull(logo)]
  }

  /** A new company clashes exactly when its handle or its name is already stored. */
  lemma ClashMeansTaken(rows: Table.Rows, handle: string, name: string, numEmployees: Option<int>, description: Option<string>, logo: Option<string>)
    requires Table.Valid(SCHEMA, rows)
    ensures Table.Clashes(SCHEMA, rows, NewCompany(handle, name, numEmployees, description, logo))
        <==> Text(handle) in rows || exists k :: k in rows && rows[k]["name"] == Text(name)
  {
    var row := NewCompany(handle, name, numEmployees, description, logo);
    if Text(handle) in rows {
      assert rows[Text(handle)]["handle"] == row["handle"];
    }
    if exists k :: k in rows && rows[k]["name"] == Text(name) {
      var k :| k in rows && rows[k]["name"] == Text(name);
      assert "name" in SCHEMA.unique;
    }
  }

  const FB_LOGO := "https://image.flaticon.com/icons/png/512/124/124010.png"
  const G_LOGO := "https://www.google.com/images/branding/googlelogo/2x/googlelogo_color_92x30dp.png"

  /** The two companies the tests seed. */
  function Seeded(): Table.Rows {
    map[Text("FB") := NewCompany("FB", "Facebook", Some(35000), Some("Social media giant"), Some(FB_LOGO)),
        Text("G") := NewCompany("G", "Google", Some(72000), Some("Lord Google"), Some(G_LOGO))]
  }

  /** The sizes and names of the two seeded companies, as the searches see them. */
  predicate SeededSizes(rows: Table.Rows) {
    && rows.Keys == {Text("FB"), Text("G")}
    && "num_employees" in rows[Text("FB")] && "name" in rows[Text("FB")]
    && "num_employees" in rows[Text("G")] && "name" in rows[Text("G")]
    && rows[Text("FB")]["num_employees"] == Int(35000) && rows[Text("FB")]["name"] == Text("Facebook")
    && rows[Text("G")]["num_employees"] == Int(72000) && rows[Text("G")]["name"] == Text("Google")
  }

  lemma SeededFacts(rows: Table.Rows)
    requires rows == Seeded()
    ensures SeededSizes(rows)
  {
  }

  /** With no arguments, both seeded companies are found. */
  lemma SearchBothScenario(rows: Table.Rows)
    requires SeededSizes(rows)
    ensures var r := Search(rows, None, None, None);
      r.Ok? && r.value.Keys == {Text("FB"), Text("G")}
  {
    assert Matches(rows[Text("FB")], None, 0, MAX_COMPANY_SIZE);
    assert Matches(rows[Text("G")], None, 0, MAX_COMPANY_SIZE);
  }

  /** Term "face" with bounds 10000..50000 finds Facebook only. */
  lemma SearchFaceScenario(rows: Table.Rows)
    requires SeededSizes(rows)
    ensures var r := Search(rows, Some("face"), Some(10000), Some(50000));
      r.Ok? && r.value.Keys == {Text("FB")}
  {
    Like.FacebookMatchesFace(rows[Text("FB")]["name"].text, "face");
    assert Matches(rows[Text("FB")], Some("face"), 10000, 50000);
    assert !Matches(rows[Text("G")], Some("face"), 10000, 50000);
  }

  /** Bounds 10000..9000 are rejected before any statement. */
  lemma SearchRangeScenario(rows: Table.Rows)
    requires SeededSizes(rows)
    ensures Search(rows, Some("face"), Some(10000), Some(9000)) == Err(Thrown(RANGE_INVALID))
  {
  }

  lemma SchemaNames()
    ensures UpdateText.Name(SCHEMA.name) && UpdateText.Name(SCHEMA.keyColumn)
  {
  }

  /**
    * The statement `Company.update` runs, sqlForPartialUpdate("companies", items,
    * "handle", handle): whenever the store can read it, it updates this
    * table at the given handle.
    */
  function UpdateStatement(handle: string, items: Items): (q: Query)
    ensures Table.Targets(SCHEMA, q)
    ensures UpdateText.ReadUpdate(q).Some? ==> UpdateText.ReadUpdate(q).value.key == Text(handle)
  {
    SchemaNames();
    Table.BuiltTargets(SCHEMA, items, Text(handle));
    SqlForPartialUpdate(SCHEMA.name, items, SCHEMA.keyColumn, Text(handle))
  }

  /** The `companies` table, changed in place by create, update and delete. */
  class CompanyTable {
    var rows: Table.Rows

    ghost predicate Valid()
      reads this
    {
      Table.Valid(SCHEMA, rows)
    }

    constructor ()
      ensures Valid() && rows == map[]
    {
      rows := map[];
    }

    /** `Company.create`: any insert failure becomes "Company handle/name already exists". */
    method Create(handle: string, name: string, numEmployees: Option<int>, description: Option<string>, logo: Option<string>)
      returns (r: Result<Row>)
      requires Valid()
      modifies this
      ensures Valid()
      ensures r.Ok? <==> Text(handle) !in old(rows) && forall k :: k in old(rows) ==> old(rows)[k]["name"] != Text(name)
      ensures r.Ok? ==>
        && r.value == NewCompany(handle, name, numEmployees, description, logo)
        && rows == old(rows)[Text(handle) := r.value]
        && Get(rows, handle) == r
      ensures r.Err? ==> r.failure == Thrown(ALREADY_EXISTS) && rows == old(rows)
    {
      var row := NewCompany(handle, name, numEmployees, description, logo);
      Table.InsertKeepsValid(SCHEMA, rows, row);
      ClashMeansTaken(rows, handle, name, numEmployees, description, logo);
      var o := Table.Insert(SCHEMA, rows, row);
      if o.Done? {
        rows := o.rows;
        r := Ok(o.row);
      } else {
        r := Err(Thrown(ALREADY_EXISTS));
      }
    }

    /**
      * `Company.update`: runs the statement sqlForPartialUpdate("companies", items,
      * "handle", handle) builds; no row with that handle gives "Company not found.".
      */
    method Update(handle: string, items: Items) returns (r: Result<Row>)
      requires Valid()
      modifies this
      ensures Valid()
      ensures var o := Table.Execute(SCHEMA, old(rows), UpdateStatement(handle, items));
        && (o.NoRow? ==> r == Err(Thrown(NOT_FOUND)) && rows == old(rows))
        && (o.Failed? ==> r == Err(Store(o.error)) && rows == old(rows))
        && (o.Done? ==> r == Ok(o.row) && rows == o.rows)
      ensures r == Err(Thrown(NOT_FOUND)) ==> Text(handle) !in old(rows)
      ensures r.Ok? ==> Text(handle) in old(rows) && r.value.Keys == COLUMNS
      ensures UpdateText.Named(Fields(items)) ==>
        Table.Execute(SCHEMA, old(rows), UpdateStatement(handle, items)) == Table.UpdateByKey(SCHEMA, old(rows), Text(handle), Fields(items))
      ensures var fields := Fields(items);
        UpdateText.Identifiers(fields) ==>
          && (r == Err(Thrown(NOT_FOUND))
              <==> fields != [] && Columns(fields) <= COLUMNS && DistinctColumns(fields) && Text(handle) !in old(rows))
          && (r.Ok? ==>
            && (forall c :: c in COLUMNS && c !in Columns(fields) ==> r.value[c] == old(rows)[Text(handle)][c])
            && (forall i :: 0 <= i < |fields| ==> r.value[fields[i].0] == fields[i].1)
            && (forall k :: k in old(rows) && k != Text(handle) ==> k in rows && rows[k] == old(rows)[k]))
    {
      var q := UpdateStatement(handle, items);
      Table.ExecuteKeepsValid(SCHEMA, rows, q);
      SchemaNames();
      Table.ExecuteBuilt(SCHEMA, rows, items, Text(handle));
      var o := Table.Execute(SCHEMA, rows, q);
      match o
      case NoRow => r := Err(Thrown(NOT_FOUND));
      case Failed(e) => r := Err(Store(e));
      case Done(row, after) =>
        rows := after;
        r := Ok(row);
    }

    /** `Company.delete`: removes the keyed row only. */
    method Delete(handle: string) returns (r: Result<string>)
      requires Valid()
      modifies this
      ensures Valid()
      ensures r.Ok? <==> Text(handle) in old(rows)
      ensures r.Ok? ==> r.value == DELETED && rows == old(rows) - {Text(handle)}
      ensures r.Err? ==> r.failure == Thrown(NOT_FOUND) && rows == old(rows)
    {
      Table.DeleteKeepsValid(SCHEMA, rows, Text(handle));
      var o := Table.DeleteByKey(rows, Text(handle));
      if o.Done? {
        rows := o.rows;
        r := Ok(DELETED);
      } else {
        r := Err(Thrown(NOT_FOUND));
      }
    }
  }
}

=== FILE: decimal.dfy ===
/** Decimal rendering of the positional parameter numbers `$1`, `$2`, ... */
module Decimal {

  predicate IsDigit(c: char) {
    '0' <= c <= '9'
  }

  predicate AllDigits(s: string) {
    forall i :: 0 <= i < |s| ==> IsDigit(s[i])
  }

  function DigitChar(d: nat): (c: char)
    requires d < 10
    ensures IsDigit(c) && c as int - '0' as int == d
  {
    ('0' as int + d) as char
  }

  /** The decimal numeral of n, without leading zeros. */
  function Show(n: nat): (s: string)
    ensures s != [] && AllDigits(s)
    ensures |s| > 1 ==> s[0] != '0'
  {
    if n < 10 then [DigitChar(n)] else Show(n / 10) + [DigitChar(n % 10)]
  }

  /** The number a string of digits denotes. */
  function Read(s: string): nat
    requires AllDigits(s)
  {
    if s == [] then 0 else 10 * Read(s[..|s| - 1]) + (s[|s| - 1] as int - '0' as int)
  }

  lemma {:induction false} ReadShow(n: nat)
    ensures Read(Show(n)) == n
  {
    if n >= 10 {
      ReadShow(n / 10);
      var s := Show(n);
      assert s[..|s| - 1] == Show(n / 10);
    }
  }

  /** Distinct numbers have distinct numerals, so no two placeholders coincide. */
  lemma ShowInjective(m: nat, n: nat)
    ensures Show(m) == Show(n) ==> m == n
  {
    ReadShow(m);
    ReadShow(n);
  }
}

=== FILE: jobs.dfy ===
/** The Job model: minimum-bound search, get, and the create/update/delete statements on `jobs`. */
module Jobs {
  import opened SqlValues
  import opened PartialUpdate
  import Table
  import UpdateText
  import Like

  const NOT_FOUND := "Job not found."
  const ALREADY_POSTED := "Job already posted."
  const DELETED := "Job deleted"

  const COLUMNS: set<string> := {"id", "title", "salary", "equity", "company_handle", "date_posted"}
  const SCHEMA := Table.Schema("jobs", "id", COLUMNS, {"id"})

  /** The columns a search returns. */
  const LISTED: set<string> := {"title", "company_handle"}

  const BY_BOUNDS := "SELECT title, company_handle FROM jobs WHERE salary >= $1 AND equity >= $2;"
  const BY_TITLE_AND_BOUNDS := "SELECT title, company_handle FROM jobs WHERE title ILIKE $1 AND salary >= $2 AND equity >= $3;"

  /** A minimum bound after its default of 0. */
  function Min(bound: Option<real>): real {
    match bound
    case None => 0.0
    case Some(x) => x
  }

  /**
    * The statement a search issues. There is no upper bound and no ordering
    * check, so every search issues one; the two minimums are bound last and
    * the pattern comes first when there is a term.
    */
  function SearchStatement(search: Option<string>, minSalary: Option<real>, minEquity: Option<real>): (r: Query)
    ensures |r.values| == (if Like.HasTerm(search) then 3 else 2)
    ensures r.values[|r.values| - 2..] == [Num(Min(minSalary)), Num(Min(minEquity))]
    ensures Like.HasTerm(search) ==> r.values[0] == Text(Like.Pattern(search.value))
  {
    var salary, equity := Min(minSalary), Min(minEquity);
    if !Like.HasTerm(search) then Query(BY_BOUNDS, [Num(salary), Num(equity)])
    else Query(BY_TITLE_AND_BOUNDS, [Text(Like.Pattern(search.value)), Num(salary), Num(equity)])
  }

  /** `v >= bound`; NULL satisfies no comparison. */
  predicate AtLeast(v: Value, bound: Value) {
    v.Num? && bound.Num? && v.amount >= bound.amount
  }

  /** The WHERE clause of either search statement, evaluated on a stored row with the bound values. */
  predicate Selects(q: Query, row: Row) {
    && "title" in row && "salary" in row && "equity" in row
    && if q.query == BY_BOUNDS && |q.values| == 2 then
         AtLeast(row["salary"], q.values[0]) && AtLeast(row["equity"], q.values[1])
       else if q.query == BY_TITLE_AND_BOUNDS && |q.values| == 3 then
         Like.ValueLike(row["title"], q.values[0])
         && AtLeast(row["salary"], q.values[1]) && AtLeast(row["equity"], q.values[2])
       else false
  }

  /**
    * The rows a search stands for: salary and equity at least their minimums
    * and, when a term is given, a title matching `%term%` up to case.
    */
  predicate Matches(row: Row, search: Option<string>, minSalary: real, minEquity: real) {
    && "title" in row && "salary" in row && "equity" in row
    && row["salary"].Num? && row["salary"].amount >= minSalary
    && row["equity"].Num? && row["equity"].amount >= minEquity
    && (Like.HasTerm(search) ==> row["title"].Text? && Like.ILike(row["title"].text, Like.Pattern(search.value)))
  }

  /** Each statement keeps exactly the rows the search stands for. */
  lemma StatementSelectsMatches(search: Option<string>, minSalary: Option<real>, minEquity: Option<real>, row: Row)
    ensures Selects(SearchStatement(search, minSalary, minEquity), row)
        <==> Matches(row, search, Min(minSalary), Min(minEquity))
  {
  }

  /** For a term free of LIKE metacharacters, the title test is a case-insensitive substring test. */
  lemma PlainTermMatches(row: Row, term: string, minSalary: real, minEquity: real)
    requires Like.Plain(term) && term != ""
    requires "title" in row && "salary" in row && "equity" in row && row["title"].Text?
    ensures Matches(row, Some(term), minSalary, minEquity)
        <==> && row["salary"].Num? && row["salary"].amount >= minSalary
             && row["equity"].Num? && row["equity"].amount >= minEquity
             && Like.ContainsFolded(row["title"].text, term)
  {
    Like.SubstringPattern(row["title"].text, term);
  }

  /**
    * `Job.search`: the matching rows projected to title and company_handle,
    * or "Job not found." when there are none.
    */
  function Search(rows: Table.Rows, search: Option<string>, minSalary: Option<real>, minEquity: Option<real>)
    : (r: Result<Table.Rows>)
    ensures r.Ok? ==> r.value != map[]
    ensures r.Ok? ==> forall k :: k in r.value <==> k in rows && Matches(rows[k], search, Min(minSalary), Min(minEquity))
    ensures r.Ok? ==> forall k :: k in r.value ==> r.value[k] == Project(rows[k], LISTED)
    ensures r.Err? <==> forall k :: k in rows ==> !Matches(rows[k], search, Min(minSalary), Min(minEquity))
    ensures r.Err? ==> r.failure == Thrown(NOT_FOUND)
  {
    var q := SearchStatement(search, minSalary, minEquity);
    var found := Table.Select(rows, row => Selects(q, row), LISTED);
    assert forall k :: k in found <==> k in rows && Matches(rows[k], search, Min(minSalary), Min(minEquity)) by {
      forall k ensures k in found <==> k in rows && Matches(rows[k], search, Min(minSalary), Min(minEquity)) {
        if k in rows {
          StatementSelectsMatches(search, minSalary, minEquity, rows[k]);
        }
      }
    }
    if |found| == 0 then
      assert forall k :: k in rows ==> !Matches(rows[k], search, Min(minSalary), Min(minEquity)) by {
        forall k | k in rows ensures !Matches(rows[k], search, Min(minSalary), Min(minEquity)) {
          assert k !in found;
        }
      }
      Err(Thrown(NOT_FOUND))
    else
      assert found != map[];
      Ok(found)
  }

  /** Raising a minimum never adds a row to what a search finds. */
  lemma SearchMonotone(rows: Table.Rows, search: Option<string>, s1: real, e1: real, s2: real, e2: real)
    requires s1 <= s2 && e1 <= e2
    ensures var wide, narrow := Search(rows, search, Some(s1), Some(e1)), Search(rows, search, Some(s2), Some(e2));
      narrow.Ok? ==> wide.Ok? && narrow.value.Keys <= wide.value.Keys
  {
    var wide, narrow := Search(rows, search, Some(s1), Some(e1)), Search(rows, search, Some(s2), Some(e2));
    if narrow.Ok? {
      forall k | k in narrow.value ensures k in rows && Matches(rows[k], search, s1, e1) {
        assert Matches(rows[k], search, s2, e2);
      }
      var k :| k in narrow.value;
      assert k in wide.value;
    }
  }

  /** `Job.get`: the full stored row, or "Job not found.". */
  function Get(rows: Table.Rows, id: int): (r: Result<Row>)
    ensures r.Ok? <==> Int(id) in rows
    ensures r.Ok? ==> r.value == rows[Int(id)]
    ensures r.Err? ==> r.failure == Thrown(NOT_FOUND)
  {
    if Int(id) in rows then Ok(rows[Int(id)]) else Err(Thrown(NOT_FOUND))
  }

  /**
    * The row `INSERT INTO jobs (title, salary, equity, company_handle)` stores:
    * `id` from the table's sequence and `date_posted` from the clock.
    */
  function NewJob(id: int, title: string, salary: real, equity: real, companyHandle: string, now: int): (r: Row)
    ensures r.Keys == COLUMNS
    ensures r["id"] == Int(id) && r["title"] == Text(title) && r["company_handle"] == Text(companyHandle)
    ensures r["salary"] == Num(salary) && r["equity"] == Num(equity) && r["date_posted"] == Timestamp(now)
  {
    map["id" := Int(id), "title" := Text(title), "salary" := Num(salary), "equity" := Num(equity),
        "company_handle" := Text(companyHandle), "date_posted" := Timestamp(now)]
  }

  /** A stored row holds this title for this company. */
  predicate Posted(row: Row, title: string, companyHandle: string) {
    "title" in row && "company_handle" in row && row["title"] == Text(title) && row["company_handle"] == Text(companyHandle)
  }

  /** The only UNIQUE column of `jobs` is its key, so a new row clashes exactly when its id is taken. */
  lemma ClashMeansIdTaken(rows: Table.Rows, id: int, title: string, salary: real, equity: real, companyHandle: string, now: int)
    requires Table.Valid(SCHEMA, rows)
    ensures Table.Clashes(SCHEMA, rows, NewJob(id, title, salary, equity, companyHandle, now)) <==> Int(id) in rows
  {
    var row := NewJob(id, title, salary, equity, companyHandle, now);
    if Int(id) in rows {
      assert rows[Int(id)]["id"] == row["id"];
    }
  }

  /**
    * The jobs the tests seed: two take ids from the sequence, written here as
    * 1 and 2 (the test database's sequence has already moved past 1, so their
    * real ids differ; only their columns matter below), and one is given id
    * 9999999.
    */
  function Seeded(now: int): Table.Rows {
    map[Int(1) := NewJob(1, "Software Engineer", 150000.0, 0.000001, "FB", now),
        Int(2) := NewJob(2, "CEO", 15000000.0, 0.10, "G", now),
        Int(9999999) := NewJob(9999999, "Social Media Intern", 65000.0, 0.0, "G", now)]
  }

  /** The salaries, equities and the CEO title of the seeded jobs, as the searches see them. */
  predicate SeededPay(rows: Table.Rows) {
    && rows.Keys == {Int(1), Int(2), Int(9999999)}
    && (forall k :: k in rows ==> "title" in rows[k] && "salary" in rows[k] && "equity" in rows[k])
    && rows[Int(1)]["salary"] == Num(150000.0) && rows[Int(1)]["equity"] == Num(0.000001)
    && rows[Int(2)]["salary"] == Num(15000000.0) && rows[Int(2)]["equity"] == Num(0.10)
    && rows[Int(9999999)]["salary"] == Num(65000.0) && rows[Int(9999999)]["equity"] == Num(0.0)
    && rows[Int(2)]["title"] == Text("CEO")
  }

  lemma SeededFacts(rows: Table.Rows, now: int)
    requires rows == Seeded(now)
    ensures SeededPay(rows)
  {
  }

  lemma SeededValid(rows: Table.Rows, now: int)
    requires rows == Seeded(now)
    ensures Table.Valid(SCHEMA, rows) && Int(9999999) in rows
  {
    assert rows.Keys == {Int(1), Int(2), Int(9999999)};
    KeyedByIdValid(rows);
  }

  /** The key is the only UNIQUE column of `jobs`, so rows holding every column and filed under their ids form a valid table. */
  lemma KeyedByIdValid(rows: Table.Rows)
    requires forall k :: k in rows ==> k != Null && rows[k].Keys == COLUMNS && rows[k]["id"] == k
    ensures Table.Valid(SCHEMA, rows)
  {
  }

  /**
    * `PATCH /jobs/9999999` sends a title, a salary, an equity and the
    * request's `_token`: the token is dropped before the statement is built,
    * and the intern's row takes the three values, keeping its id, company and
    * posting date.
    */
  lemma UpdateInternScenario(rows: Table.Rows, now: int, token: string)
    requires rows == Seeded(now)
    ensures Table.Valid(SCHEMA, rows)
    ensures var items := [("title", Text("Assistant")), ("salary", Num(55000.0)), ("equity", Num(0.0)), ("_token", Text(token))];
      var o := Table.Execute(SCHEMA, rows, UpdateStatement(9999999, items));
      && o.Done?
      && o.row == NewJob(9999999, "Assistant", 55000.0, 0.0, "G", now)
      && o.rows == rows[Int(9999999) := o.row]
  {
    var items := [("title", Text("Assistant")), ("salary", Num(55000.0)), ("equity", Num(0.0)), ("_token", Text(token))];
    SeededValid(rows, now);
    TokenDropped("Assistant", 55000.0, 0.0, token);
    RepostedJob(rows, 9999999, "Social Media Intern", 65000.0, 0.0, "G", now, "Assistant", 55000.0, 0.0, items);
  }

  /**
    * A SET list whose kept fields are the title, the salary and the equity
    * updates those three columns of a stored job and nothing else.
    */
  lemma RepostedJob(rows: Table.Rows, id: int, title: string, salary: real, equity: real, company: string, now: int,
                    newTitle: string, newSalary: real, newEquity: real, items: Items)
    requires Table.Valid(SCHEMA, rows) && Int(id) in rows && rows[Int(id)] == NewJob(id, title, salary, equity, company, now)
    requires Fields(items) == [("title", Text(newTitle)), ("salary", Num(newSalary)), ("equity", Num(newEquity))]
    ensures var o := Table.Execute(SCHEMA, rows, UpdateStatement(id, items));
      && o.Done?
      && o.row == NewJob(id, newTitle, newSalary, newEquity, company, now)
      && o.rows == rows[Int(id) := o.row]
  {
    var fields := Fields(items);
    PayFields(newTitle, newSalary, newEquity);
    SchemaNames();
    Table.ExecuteBuilt(SCHEMA, rows, items, Int(id));
    Table.UpdateOutsideUnique(SCHEMA, rows, Int(id), fields);
    Repriced(id, title, salary, equity, company, now, newTitle, newSalary, newEquity);
  }

  /** The title, salary and equity items are plainly named, distinct columns of `jobs` outside its key. */
  lemma PayFields(newTitle: string, newSalary: real, newEquity: real)
    ensures var fields := [("title", Text(newTitle)), ("salary", Num(newSalary)), ("equity", Num(newEquity))];
      && UpdateText.Named(fields)
      && Columns(fields) == {"title", "salary", "equity"}
      && Table.StatementError(SCHEMA, fields).None?
      && Columns(fields) !! SCHEMA.unique
  {
    var fields := [("title", Text(newTitle)), ("salary", Num(newSalary)), ("equity", Num(newEquity))];
    assert fields[0].0 == "title" && fields[1].0 == "salary" && fields[2].0 == "equity";
    assert Columns(fields) == {"title", "salary", "equity"};
  }

  lemma Repriced(id: int, title: string, salary: real, equity: real, company: string, now: int,
                 newTitle: string, newSalary: real, newEquity: real)
    ensures var fields := [("title", Text(newTitle)), ("salary", Num(newSalary)), ("equity", Num(newEquity))];
      Table.Patch(NewJob(id, title, salary, equity, company, now), fields)
        == NewJob(id, newTitle, newSalary, newEquity, company, now)
  {
    var before := NewJob(id, title, salary, equity, company, now);
    PatchThree(before, ("title", Text(newTitle)), ("salary", Num(newSalary)), ("equity", Num(newEquity)));
  }

  /** Patching with three items sets their columns one after the other. */
  lemma PatchThree(row: Row, x: (string, Value), y: (string, Value), z: (string, Value))
    ensures Table.Patch(row, [x, y, z]) == row[x.0 := x.1][y.0 := y.1][z.0 := z.1]
  {
    var r1 := row[x.0 := x.1];
    var r2 := r1[y.0 := y.1];
    assert [x, y, z][1..] == [y, z] && [y, z][1..] == [z] && [z][1..] == [];
    assert Table.Patch(row, [x, y, z]) == Table.Patch(r1, [y, z]);
    assert Table.Patch(r1, [y, z]) == Table.Patch(r2, [z]);
    assert Table.Patch(r2, [z]) == Table.Patch(r2[z.0 := z.1], []);
  }

  /** A `_token` item is left out of the SET list; the plain column names before it are kept in order. */
  lemma TokenDropped(newTitle: string, newSalary: real, newEquity: real, token: string)
    ensures Fields([("title", Text(newTitle)), ("salary", Num(newSalary)), ("equity", Num(newEquity)), ("_token", Text(token))])
         == [("title", Text(newTitle)), ("salary", Num(newSalary)), ("equity", Num(newEquity))]
  {
    var pay := [("title", Text(newTitle)), ("salary", Num(newSalary)), ("equity", Num(newEquity))];
    var tail := [("_token", Text(token))];
    assert pay[0].0 == "title" && pay[1].0 == "salary" && pay[2].0 == "equity";
    assert Private(tail[0].0);
    FieldsAppend(pay, tail);
    assert pay + tail == [("title", Text(newTitle)), ("salary", Num(newSalary)), ("equity", Num(newEquity)), ("_token", Text(token))];
  }

  /** A search finds exactly the stored rows that match, keyed as stored. */
  lemma SearchFinds(rows: Table.Rows, search: Option<string>, minSalary: Option<real>, minEquity: Option<real>, expected: set<Value>)
    requires expected != {} && expected <= rows.Keys
    requires forall k :: k in rows ==> (k in expected <==> Matches(rows[k], search, Min(minSalary), Min(minEquity)))
    ensures var r := Search(rows, search, minSalary, minEquity);
      r.Ok? && r.value.Keys == expected
  {
    var k :| k in expected;
    assert Matches(rows[k], search, Min(minSalary), Min(minEquity));
  }

  /** With no arguments, every seeded job is found. */
  lemma SearchNoParametersScenario(rows: Table.Rows)
    requires SeededPay(rows)
    ensures var r := Search(rows, None, None, None);
      r.Ok? && r.value.Keys == {Int(1), Int(2), Int(9999999)}
  {
    forall k | k in rows ensures Matches(rows[k], None, 0.0, 0.0) {
    }
    SearchFinds(rows, None, None, None, {Int(1), Int(2), Int(9999999)});
  }

  /** A minimum salary of 80000 finds the engineer and the CEO. */
  lemma SearchSalaryScenario(rows: Table.Rows)
    requires SeededPay(rows)
    ensures var r := Search(rows, Some(""), Some(80000.0), None);
      r.Ok? && r.value.Keys == {Int(1), Int(2)}
  {
    forall k | k in rows ensures k in {Int(1), Int(2)} <==> Matches(rows[k], Some(""), 80000.0, 0.0) {
    }
    SearchFinds(rows, Some(""), Some(80000.0), None, {Int(1), Int(2)});
  }

  /** A minimum equity of 0.01 finds the CEO only. */
  lemma SearchEquityScenario(rows: Table.Rows)
    requires SeededPay(rows)
    ensures var r := Search(rows, Some(""), Some(0.0), Some(0.01));
      r.Ok? && r.value.Keys == {Int(2)}
  {
    forall k | k in rows ensures k in {Int(2)} <==> Matches(rows[k], Some(""), 0.0, 0.01) {
    }
    SearchFinds(rows, Some(""), Some(0.0), Some(0.01), {Int(2)});
  }

  /** Term "CEO" with minimums 60000 and 0.01 finds the CEO only. */
  lemma SearchAllParametersScenario(rows: Table.Rows)
    requires SeededPay(rows)
    ensures var r := Search(rows, Some("CEO"), Some(60000.0), Some(0.01));
      r.Ok? && r.value.Keys == {Int(2)}
  {
    Like.TermMatchesItself("CEO");
    forall k | k in rows ensures k in {Int(2)} <==> Matches(rows[k], Some("CEO"), 60000.0, 0.01) {
    }
    SearchFinds(rows, Some("CEO"), Some(60000.0), Some(0.01), {Int(2)});
  }

  lemma SchemaNames()
    ensures UpdateText.Name(SCHEMA.name) && UpdateText.Name(SCHEMA.keyColumn)
  {
  }

  /**
    * The statement `Job.update` runs, sqlForPartialUpdate("jobs", items,
    * "id", id): whenever the store can read it, it updates this
    * table at the given id.
    */
  function UpdateStatement(id: int, items: Items): (q: Query)
    ensures Table.Targets(SCHEMA, q)
    ensures UpdateText.ReadUpdate(q).Some? ==> UpdateText.ReadUpdate(q).value.key == Int(id)
  {
    SchemaNames();
    Table.BuiltTargets(SCHEMA, items, Int(id));
    SqlForPartialUpdate(SCHEMA.name, items, SCHEMA.keyColumn, Int(id))
  }

  /** The `jobs` table, changed in place by create, update and delete, with its id sequence. */
  class JobTable {
    var rows: Table.Rows
    /** The next value of the `id` column's sequence. */
    var nextId: int

    ghost predicate Valid()
      reads this
    {
      Table.Valid(SCHEMA, rows)
    }

    constructor ()
      ensures Valid() && rows == map[] && nextId == 1
    {
      rows := map[];
      nextId := 1;
    }

    /**
      * `Job.create`: an existing (title, company_handle) pair gives "Job
      * already posted." and draws no id; otherwise the insert draws the next
      * id, which it uses up even when that id is already taken.
      */
    method Create(title: string, salary: real, equity: real, companyHandle: string, now: int) returns (r: Result<Row>)
      requires Valid()
      modifies this
      ensures Valid()
      ensures (exists k :: k in old(rows) && Posted(old(rows)[k], title, companyHandle))
          ==> r == Err(Thrown(ALREADY_POSTED)) && rows == old(rows) && nextId == old(nextId)
      ensures r.Ok? <==> (forall k :: k in old(rows) ==> !Posted(old(rows)[k], title, companyHandle)) && Int(old(nextId)) !in old(rows)
      ensures r.Ok? ==>
        && r.value == NewJob(old(nextId), title, salary, equity, companyHandle, now)
        && rows == old(rows)[Int(old(nextId)) := r.value]
        && nextId == old(nextId) + 1
        && Get(rows, old(nextId)) == r
      ensures r.Err? ==> rows == old(rows)
      ensures r.Err? && r != Err(Thrown(ALREADY_POSTED)) ==> r == Err(Store(UniqueViolation)) && nextId == old(nextId) + 1
    {
      var existing := Table.Select(rows, row => Posted(row, title, companyHandle), COLUMNS);
      if |existing| > 0 {
        var k :| k in existing;
        r := Err(Thrown(ALREADY_POSTED));
        return;
      }
      assert forall k :: k in rows ==> !Posted(rows[k], title, companyHandle) by {
        forall k | k in rows ensures !Posted(rows[k], title, companyHandle) {
          assert k !in existing;
        }
      }
      var row := NewJob(nextId, title, salary, equity, companyHandle, now);
      Table.InsertKeepsValid(SCHEMA, rows, row);
      ClashMeansIdTaken(rows, nextId, title, salary, equity, companyHandle, now);
      var o := Table.Insert(SCHEMA, rows, row);
      nextId := nextId + 1;
      if o.Done? {
        rows := o.rows;
        r := Ok(o.row);
      } else {
        r := Err(Store(o.error));
      }
    }

    /**
      * `Job.update`: runs the statement sqlForPartialUpdate("jobs", items,
      * "id", id) builds; no row with that id gives "Job not found.".
      */
    method Update(id: int, items: Items) returns (r: Result<Row>)
      requires Valid()
      modifies this`rows
      ensures Valid()
      ensures var o := Table.Execute(SCHEMA, old(rows), UpdateStatement(id, items));
        && (o.NoRow? ==> r == Err(Thrown(NOT_FOUND)) && rows == old(rows))
        && (o.Failed? ==> r == Err(Store(o.error)) && rows == old(rows))
        && (o.Done? ==> r == Ok(o.row) && rows == o.rows)
      ensures r == Err(Thrown(NOT_FOUND)) ==> Int(id) !in old(rows)
      ensures r.Ok? ==> Int(id) in old(rows) && r.value.Keys == COLUMNS
      ensures UpdateText.Named(Fields(items)) ==>
        Table.Execute(SCHEMA, old(rows), UpdateStatement(id, items)) == Table.UpdateByKey(SCHEMA, old(rows), Int(id), Fields(items))
      ensures var fields := Fields(items);
        UpdateText.Identifiers(fields) ==>
          && (r == Err(Thrown(NOT_FOUND))
              <==> fields != [] && Columns(fields) <= COLUMNS && DistinctColumns(fields) && Int(id) !in old(rows))
          && (r.Ok? ==>
            && (forall c :: c in COLUMNS && c !in Columns(fields) ==> r.value[c] == old(rows)[Int(id)][c])
            && (forall i :: 0 <= i < |fields| ==> r.value[fields[i].0] == fields[i].1)
            && (forall k :: k in old(rows) && k != Int(id) ==> k in rows && rows[k] == old(rows)[k]))
    {
      var q := UpdateStatement(id, items);
      Table.ExecuteKeepsValid(SCHEMA, rows, q);
      SchemaNames();
      Table.ExecuteBuilt(SCHEMA, rows, items, Int(id));
      var o := Table.Execute(SCHEMA, rows, q);
      match o
      case NoRow => r := Err(Thrown(NOT_FOUND));
      case Failed(e) => r := Err(Store(e));
      case Done(row, after) =>
        rows := after;
        r := Ok(row);
    }

    /** `Job.delete`: removes the keyed row only and answers "Job deleted". */
    method Delete(id: int) returns (r: Result<string>)
      requires Valid()
      modifies this
      ensures Valid() && nextId == old(nextId)
      ensures r.Ok? <==> Int(id) in old(rows)
      ensures r.Ok? ==> r.value == DELETED && rows == old(rows) - {Int(id)}
      ensures r.Err? ==> r.failure == Thrown(NOT_FOUND) && rows == old(rows)
    {
      Table.DeleteKeepsValid(SCHEMA, rows, Int(id));
      var o := Table.DeleteByKey(rows, Int(id));
      if o.Done? {
        rows := o.rows;
        r := Ok(DELETED);
      } else {
        r := Err(Thrown(NOT_FOUND));
      }
    }
  }
}

=== FILE: like.dfy ===
/** The `ILIKE` pattern match the search statements use. */
module Like {
  import opened SqlValues

  /** Case folding as ILIKE applies it; only ASCII letters are folded here. */
  function Fold(c: char): char {
    if 'A' <= c <= 'Z' then (c as int + 32) as char else c
  }

  /** A term holding none of the pattern metacharacters `%`, `_` and the escape `\`. */
  predicate Plain(t: string) {
    forall i :: 0 <= i < |t| ==> t[i] != '%' && t[i] != '_' && t[i] != '\\'
  }

  predicate FoldEq(a: string, b: string) {
    |a| == |b| && forall i :: 0 <= i < |a| ==> Fold(a[i]) == Fold(b[i])
  }

  /** `t` occurs in `s` at position i, ignoring case. */
  predicate OccursAt(s: string, t: string, i: nat) {
    i + |t| <= |s| && FoldEq(s[i..i + |t|], t)
  }

  /** `t` occurs in `s`, ignoring case. */
  predicate ContainsFolded(s: string, t: string) {
    exists i: nat :: i <= |s| && OccursAt(s, t, i)
  }

  /**
    * `s ILIKE p`: `%` matches any run of characters, `_` any one character,
    * `\` makes the next pattern character literal, everything else matches
    * itself up to case. A lone trailing `\` is taken literally; a pattern of
    * the form `%term%` never ends in one.
    */
  function ILike(s: string, p: string): (r: bool)
    decreases |s| + |p|
    ensures Plain(p) ==> (r <==> FoldEq(s, p))
  {
    if p == [] then s == []
    else if p[0] == '%' then ILike(s, p[1..]) || (s != [] && ILike(s[1..], p))
    else if s == [] then false
    else if p[0] == '_' then ILike(s[1..], p[1..])
    else if p[0] == '\\' && |p| >= 2 then Fold(s[0]) == Fold(p[1]) && ILike(s[1..], p[2..])
    else Fold(s[0]) == Fold(p[0]) && ILike(s[1..], p[1..])
  }

  lemma {:induction false} PercentMatchesAll(s: string)
    ensures ILike(s, "%")
  {
    if s != [] {
      PercentMatchesAll(s[1..]);
    }
  }

  /** A plain term followed by `%` matches exactly the strings it starts, up to case. */
  lemma {:induction false} PlainPrefix(s: string, t: string)
    requires Plain(t)
    ensures ILike(s, t + "%") <==> |t| <= |s| && FoldEq(s[..|t|], t)
  {
    if t == [] {
      assert t + "%" == "%";
      PercentMatchesAll(s);
    } else {
      var p := t + "%";
      assert p[0] == t[0] && p[1..] == t[1..] + "%";
      assert Plain(t[1..]) by {
        forall i | 0 <= i < |t[1..]| ensures t[1..][i] != '%' && t[1..][i] != '_' && t[1..][i] != '\\' {
          assert t[1..][i] == t[i + 1];
        }
      }
      if s != [] {
        PlainPrefix(s[1..], t[1..]);
        if |t| <= |s| {
          assert s[..|t|][1..] == s[1..][..|t| - 1];
          if FoldEq(s[..|t|], t) {
            assert Fold(s[0]) == Fold(t[0]) by { assert s[..|t|][0] == s[0]; }
            assert FoldEq(s[1..][..|t| - 1], t[1..]) by {
              forall i | 0 <= i < |t| - 1 ensures Fold(s[1..][..|t| - 1][i]) == Fold(t[1..][i]) {
                assert s[1..][..|t| - 1][i] == s[..|t|][i + 1];
              }
            }
          }
          if Fold(s[0]) == Fold(t[0]) && FoldEq(s[1..][..|t| - 1], t[1..]) {
            forall i | 0 <= i < |t| ensures Fold(s[..|t|][i]) == Fold(t[i]) {
              if i > 0 {
                assert s[..|t|][i] == s[1..][..|t| - 1][i - 1];
              }
            }
          }
        }
      }
    }
  }

  /** A leading `%` lets the rest of the pattern match any suffix. */
  lemma {:induction false} LeadingPercent(s: string, q: string)
    ensures ILike(s, "%" + q) <==> exists i :: 0 <= i <= |s| && ILike(s[i..], q)
  {
    var p := "%" + q;
    assert p[1..] == q;
    if s == [] {
      assert s[0..] == s;
    } else {
      LeadingPercent(s[1..], q);
      if ILike(s, p) {
        if ILike(s, q) {
          assert s[0..] == s;
        } else {
          var i :| 0 <= i <= |s[1..]| && ILike(s[1..][i..], q);
          assert s[1..][i..] == s[i + 1..];
        }
      } else {
        forall i | 0 <= i <= |s| ensures !ILike(s[i..], q) {
          if i == 0 {
            assert s[0..] == s;
          } else {
            assert s[1..][i - 1..] == s[i..];
          }
        }
      }
    }
  }

  /**
    * For a term free of metacharacters, the pattern `%term%` matches exactly
    * the strings that contain the term, ignoring case.
    */
  lemma {:induction false} SubstringPattern(s: string, t: string)
    requires Plain(t)
    ensures ILike(s, "%" + t + "%") <==> ContainsFolded(s, t)
  {
    assert "%" + t + "%" == "%" + (t + "%");
    LeadingPercent(s, t + "%");
    if ILike(s, "%" + t + "%") {
      var i :| 0 <= i <= |s| && ILike(s[i..], t + "%");
      PlainPrefix(s[i..], t);
      assert s[i..][..|t|] == s[i..i + |t|];
      assert OccursAt(s, t, i);
    } else {
      forall i: nat | OccursAt(s, t, i) ensures false {
        PlainPrefix(s[i..], t);
      }
    }
  }

  /** A term without metacharacters matches `%term%` itself. */
  lemma TermMatchesItself(t: string)
    requires Plain(t)
    ensures ILike(t, Pattern(t))
  {
    SubstringPattern(t, t);
    assert t[0..|t|] == t;
    assert OccursAt(t, t, 0);
  }

  /** The substring example: `face` matches `Facebook`... */
  lemma FacebookMatchesFace(s: string, t: string)
    requires s == "Facebook" && t == "face"
    ensures ILike(s, Pattern(t))
  {
    assert Plain(t);
    SubstringPattern(s, t);
    assert FoldEq(s[0..|t|], t) by {
      assert Fold(s[0]) == 'f';
    }
    assert OccursAt(s, t, 0);
  }

  /** ... and does not match `Twitch`. */
  lemma TwitchMissesFace(s: string, t: string)
    requires s == "Twitch" && t == "face"
    ensures !ILike(s, Pattern(t))
  {
    assert Plain(t);
    SubstringPattern(s, t);
    forall i: nat ensures !OccursAt(s, t, i) {
      if i + |t| <= |s| {
        assert s[i..i + |t|][0] == s[i];
        assert Fold(s[i]) != 'f';
      }
    }
  }

  /** `!search` is false: a term was given and it is not the empty string. */
  predicate HasTerm(search: Option<string>) {
    search.Some? && search.value != ""
  }

  /** The value the searches bind to ILIKE: the term wrapped in `%` on both sides. */
  function Pattern(term: string): string {
    "%" + term + "%"
  }

  /** `v ILIKE pattern` on stored values; NULL matches nothing. */
  predicate ValueLike(v: Value, pattern: Value) {
    v.Text? && pattern.Text? && ILike(v.text, pattern.text)
  }
}

=== FILE: partial_update.dfy ===
/**
  * The partial-update statement builder: from a table, an ordered list of
  * column/value items, a key column and the current key value, it builds
  * `UPDATE <table> SET c1=$1, ..., cN=$N WHERE <key>=$N+1 RETURNING *` and the
  * values bound to the placeholders. Items whose name starts with `_` (the
  * `_token` a request body carries) are dropped first.
  */
module PartialUpdate {
  import opened SqlValues
  import Decimal

  /** The fields to change, in the iteration order of the source object. */
  type Items = seq<(string, Value)>

  /** The columns an item list names, in order. */
  function ColumnList(items: Items): (r: seq<string>)
    ensures |r| == |items| && forall i :: 0 <= i < |items| ==> r[i] == items[i].0
  {
    if items == [] then [] else [items[0].0] + ColumnList(items[1..])
  }

  function Columns(items: Items): set<string> {
    set i | 0 <= i < |items| :: items[i].0
  }

  /** No column is named twice, as in the keys of an object. */
  predicate DistinctColumns(items: Items) {
    forall i, j :: 0 <= i < j < |items| ==> items[i].0 != items[j].0
  }

  /** A field the builder drops, such as `_token`: its name starts with `_`. */
  predicate Private(name: string) {
    |name| > 0 && name[0] == '_'
  }

  /** The items that reach the statement: every item without a leading `_`, in order. */
  function Fields(items: Items): (r: Items)
    ensures |r| <= |items|
    ensures forall x :: x in r <==> x in items && !Private(x.0)
    ensures (forall i :: 0 <= i < |items| ==> !Private(items[i].0)) ==> r == items
    ensures |items| == 1 && Private(items[0].0) ==> r == []
  {
    if items == [] then []
    else if Private(items[0].0) then Fields(items[1..])
    else [items[0]] + Fields(items[1..])
  }

  /**
    * Filtering a list is filtering its two halves: the kept items stay in
    * their order. With the one-item cases above this determines `Fields`.
    */
  lemma {:induction false} FieldsAppend(a: Items, b: Items)
    ensures Fields(a + b) == Fields(a) + Fields(b)
    decreases |a|
  {
    if a == [] {
      assert a + b == b;
    } else {
      assert (a + b)[0] == a[0] && (a + b)[1..] == a[1..] + b;
      FieldsAppend(a[1..], b);
    }
  }

  /** Items with the same column names keep the same column names once filtered. */
  lemma {:induction false} FieldsFollowColumns(items1: Items, items2: Items)
    requires ColumnList(items1) == ColumnList(items2)
    ensures ColumnList(Fields(items1)) == ColumnList(Fields(items2))
    decreases |items1|
  {
    assert |items1| == |ColumnList(items1)| == |items2|;
    if items1 != [] {
      assert items1[0].0 == ColumnList(items1)[0] == items2[0].0;
      assert ColumnList(items1[1..]) == ColumnList(items1)[1..] == ColumnList(items2)[1..] == ColumnList(items2[1..]);
      FieldsFollowColumns(items1[1..], items2[1..]);
      if !Private(items1[0].0) {
        assert ([items1[0]] + Fields(items1[1..]))[1..] == Fields(items1[1..]);
        assert ([items2[0]] + Fields(items2[1..]))[1..] == Fields(items2[1..]);
      }
    }
  }

  function Placeholder(n: nat): string {
    "$" + Decimal.Show(n)
  }

  function Join(sep: string, parts: seq<string>): string {
    if parts == [] then ""
    else if |parts| == 1 then parts[0]
    else parts[0] + sep + Join(sep, parts[1..])
  }

  /** The SET assignments, numbered from `first` in item order. */
  function Assignments(items: Items, first: nat): (r: seq<string>)
    ensures |r| == |items|
    ensures forall i :: 0 <= i < |items| ==> r[i] == items[i].0 + "=" + Placeholder(first + i)
  {
    if items == [] then [] else [items[0].0 + "=" + Placeholder(first)] + Assignments(items[1..], first + 1)
  }

  /** The values of the items, in item order. */
  function ItemValues(items: Items): (r: seq<Value>)
    ensures |r| == |items|
    ensures forall i :: 0 <= i < |items| ==> r[i] == items[i].1
  {
    if items == [] then [] else [items[0].1] + ItemValues(items[1..])
  }

  /** The statement text before the SET list. */
  function UpdateHead(table: string): string {
    "UPDATE " + table + " SET "
  }

  /** The statement text after the SET list: the key column and its placeholder. */
  function UpdateTail(key: string, n: nat): string {
    " WHERE " + key + "=" + Placeholder(n) + " RETURNING *"
  }

  /**
    * The builder. The item values go only into `values`, never into the text;
    * the key value is bound to the last placeholder.
    */
  function SqlForPartialUpdate(table: string, items: Items, key: string, id: Value): (r: Query)
    ensures |r.values| == |Fields(items)| + 1
    ensures forall i :: 0 <= i < |Fields(items)| ==> r.values[i] == Fields(items)[i].1
    ensures r.values[|Fields(items)|] == id
    ensures StartsWith(r.query, "UPDATE " + table + " SET ")
    ensures EndsWith(r.query, " WHERE " + key + "=" + Placeholder(|r.values|) + " RETURNING *")
  {
    var fields := Fields(items);
    var text := UpdateHead(table) + Join(", ", Assignments(fields, 1)) + UpdateTail(key, |fields| + 1);
    ShapeOf(UpdateHead(table), Join(", ", Assignments(fields, 1)), UpdateTail(key, |fields| + 1));
    Query(text, ItemValues(fields) + [id])
  }

  lemma ShapeOf(head: string, middle: string, tail: string)
    ensures StartsWith(head + middle + tail, head) && EndsWith(head + middle + tail, tail)
  {
    var s := head + middle + tail;
    assert s[..|head|] == head;
    assert s[|s| - |tail|..] == tail;
  }

  predicate StartsWith(s: string, prefix: string) {
    |prefix| <= |s| && s[..|prefix|] == prefix
  }

  predicate EndsWith(s: string, suffix: string) {
    |suffix| <= |s| && s[|s| - |suffix|..] == suffix
  }

  /**
    * Placeholder `$(i+1)` stands in the i-th assignment, next to the i-th
    * column, and is bound to the i-th item's value; no other placeholder of
    * the statement carries the same number, and the WHERE placeholder is bound
    * to the key value.
    */
  lemma EachPlaceholderBindsItsItem(table: string, items: Items, key: string, id: Value, i: nat)
    requires i < |Fields(items)|
    ensures Assignments(Fields(items), 1)[i] == Fields(items)[i].0 + "=" + Placeholder(i + 1)
    ensures SqlForPartialUpdate(table, items, key, id).values[i + 1 - 1] == Fields(items)[i].1
    ensures forall n :: 1 <= n <= |Fields(items)| + 1 && n != i + 1 ==> Placeholder(n) != Placeholder(i + 1)
  {
    forall n | 1 <= n <= |Fields(items)| + 1 && n != i + 1 ensures Placeholder(n) != Placeholder(i + 1) {
      Decimal.ShowInjective(n, i + 1);
      assert Placeholder(n)[1..] == Decimal.Show(n);
      assert Placeholder(i + 1)[1..] == Decimal.Show(i + 1);
    }
  }

  /**
    * The statement text depends on the table, the column names and the key
    * column only: no item value and not the key value is interpolated.
    */
  lemma {:induction false} QueryIgnoresValues(table: string, items1: Items, items2: Items, key: string, id1: Value, id2: Value)
    requires ColumnList(items1) == ColumnList(items2)
    ensures SqlForPartialUpdate(table, items1, key, id1).query == SqlForPartialUpdate(table, items2, key, id2).query
  {
    FieldsFollowColumns(items1, items2);
    var f1, f2 := Fields(items1), Fields(items2);
    assert |f1| == |ColumnList(f1)| == |ColumnList(f2)| == |f2|;
    var a1, a2 := Assignments(f1, 1), Assignments(f2, 1);
    forall i | 0 <= i < |f1| ensures a1[i] == a2[i] {
      assert f1[i].0 == ColumnList(f1)[i] == ColumnList(f2)[i] == f2[i].0;
    }
    assert a1 == a2;
  }

  lemma SmallPlaceholders()
    ensures Placeholder(1) == "$1" && Placeholder(2) == "$2" && Placeholder(3) == "$3"
  {
    assert Decimal.Show(1) == "1";
    assert Decimal.Show(2) == "2";
    assert Decimal.Show(3) == "3";
  }

  lemma QueryText(table: string, items: Items, key: string, id: Value)
    ensures SqlForPartialUpdate(table, items, key, id).query
         == UpdateHead(table) + Join(", ", Assignments(Fields(items), 1)) + UpdateTail(key, |Fields(items)| + 1)
  {
  }

  lemma SetListText(items: Items, second: string)
    requires |items| == 2 && items[0].0 == "name" && items[1].0 == second
    ensures Join(", ", Assignments(items, 1)) == "name=$1, " + second + "=$2"
  {
    SmallPlaceholders();
    var sets := Assignments(items, 1);
    assert sets[0] == "name=$1";
    assert sets[1] == second + "=$2";
  }

  lemma CompaniesHead()
    ensures UpdateHead("companies") == "UPDATE companies SET "
  {
  }

  lemma HandleTail()
    ensures UpdateTail("handle", 3) == " WHERE handle=$3 RETURNING *"
  {
    SmallPlaceholders();
  }

  /** Any two-item update of `companies` starting with `name`, keyed by handle. */
  lemma CompaniesPairText(items: Items, id: Value, second: string, setList: string)
    requires |items| == 2 && items[0].0 == "name" && items[1].0 == second && !Private(second)
    requires setList == "name=$1, " + second + "=$2"
    ensures SqlForPartialUpdate("companies", items, "handle", id)
         == Query("UPDATE companies SET " + setList + " WHERE handle=$3 RETURNING *", [items[0].1, items[1].1, id])
  {
    assert !Private(items[0].0) && !Private(items[1].0);
    assert Fields(items) == items;
    SetListText(items, second);
    QueryText("companies", items, "handle", id);
    CompaniesHead();
    HandleTail();
    var r := SqlForPartialUpdate("companies", items, "handle", id);
    assert r.query == "UPDATE companies SET " + setList + " WHERE handle=$3 RETURNING *";
    assert r.values == [items[0].1, items[1].1, id];
  }

  /** `{name: 'Google', num_employees: 50}` keyed by handle `'Google'`. */
  lemma GoogleUpdateExample(items: Items, id: Value)
    requires items == [("name", Text("Google")), ("num_employees", Int(50))] && id == Text("Google")
    ensures SqlForPartialUpdate("companies", items, "handle", id)
         == Query("UPDATE companies SET " + "name=$1, num_employees=$2" + " WHERE handle=$3 RETURNING *",
                  [Text("Google"), Int(50), Text("Google")])
  {
    CompaniesPairText(items, id, "num_employees", "name=$1, num_employees=$2");
  }

  /** `{name: 'Facebook', description: 'evil data goliath'}` keyed by handle `'FB'`. */
  lemma FacebookUpdateExample(items: Items, id: Value)
    requires items == [("name", Text("Facebook")), ("description", Text("evil data goliath"))] && id == Text("FB")
    ensures SqlForPartialUpdate("companies", items, "handle", id)
         == Query("UPDATE companies SET " + "name=$1, description=$2" + " WHERE handle=$3 RETURNING *",
                  [Text("Facebook"), Text("evil data goliath"), Text("FB")])
  {
    CompaniesPairText(items, id, "description", "name=$1, description=$2");
  }
}

=== FILE: sql_values.dfy ===
/** Values, rows, statements and outcomes shared by the three model classes. */
module SqlValues {

  datatype Option<+T> = None | Some(value: T)

  /** A value stored in a column or bound to a statement parameter. */
  datatype Value =
    | Null
    | Text(text: string)
    | Int(whole: int)
    | Num(amount: real)
    | Bool(flag: bool)
    | Timestamp(instant: int)

  /** A stored or returned row: column name to value. */
  type Row = map<string, Value>

  /** Errors raised by the database itself, surfacing unmapped to the caller. */
  datatype StoreError =
    | SyntaxError
    | UndefinedTable
    | UndefinedColumn
    | DuplicateAssignment
    | NotNullViolation
    | UniqueViolation

  /** Either an Error thrown by the model code with a fixed message, or a raw store error. */
  datatype Failure = Thrown(message: string) | Store(error: StoreError)

  datatype Result<+T> = Ok(value: T) | Err(failure: Failure)

  /** A parameterised statement: text with $1, $2, ... placeholders and the values bound to them. */
  datatype Query = Query(query: string, values: seq<Value>)

  /** An optional string argument as it is bound: `undefined` becomes NULL. */
  function TextOrNull(s: Option<string>): (v: Value)
    ensures v == Null <==> s.None?
    ensures s.Some? ==> v == Text(s.value)
  {
    match s
    case None => Null
    case Some(t) => Text(t)
  }

  /** An optional integer argument as it is bound: `undefined` becomes NULL. */
  function IntOrNull(n: Option<int>): (v: Value)
    ensures v == Null <==> n.None?
    ensures n.Some? ==> v == Int(n.value)
  {
    match n
    case None => Null
    case Some(i) => Int(i)
  }

  /** The columns a SELECT list keeps. */
  function Project(row: Row, columns: set<string>): (r: Row)
    ensures r.Keys == row.Keys * columns
    ensures forall c :: c in r ==> r[c] == row[c]
  {
    map c | c in row && c in columns :: row[c]
  }
}

=== FILE: table.dfy ===
/**
  * A database table held in memory: rows filed under the value of the key
  * column, with the effect of the INSERT, UPDATE ... RETURNING * and
  * DELETE ... RETURNING * statements the model classes issue.
  */
module Table {
  import opened SqlValues
  import opened PartialUpdate
  import UpdateText

  /** A table's name, key column, columns and UNIQUE columns (the key among them). */
  datatype Schema = Schema(name: string, keyColumn: string, columns: set<string>, unique: set<string>)

  predicate WellFormed(s: Schema) {
    s.keyColumn in s.unique && s.unique <= s.columns
  }

  type Rows = map<Value, Row>

  /** Every row holds exactly the table's columns and is filed under its own non-null key. */
  predicate Keyed(s: Schema, rows: Rows) {
    forall k :: k in rows ==>
      k != Null && rows[k].Keys == s.columns && s.keyColumn in rows[k] && rows[k][s.keyColumn] == k
  }

  /** No two rows share a non-null value in a UNIQUE column. */
  predicate Unique(s: Schema, rows: Rows) {
    forall k1, k2, c ::
      (k1 in rows && k2 in rows && k1 != k2 && c in s.unique && c in rows[k1] && c in rows[k2] && rows[k1][c] != Null)
      ==> rows[k1][c] != rows[k2][c]
  }

  predicate Valid(s: Schema, rows: Rows) {
    WellFormed(s) && Keyed(s, rows) && Unique(s, rows)
  }

  /** Some row of `others` holds one of `row`'s non-null values in the same UNIQUE column. */
  predicate Clashes(s: Schema, others: Rows, row: Row) {
    exists k, c :: k in others && c in s.unique && c in row && c in others[k]
      && row[c] != Null && row[c] == others[k][c]
  }

  /** Outcome of one statement on the table. */
  datatype Outcome = Done(row: Row, rows: Rows) | NoRow | Failed(error: StoreError)

  lemma ColumnsOfCons(items: Items)
    requires items != []
    ensures Columns(items) == {items[0].0} + Columns(items[1..])
  {
    forall c | c in Columns(items) ensures c in {items[0].0} + Columns(items[1..]) {
      var i :| 0 <= i < |items| && items[i].0 == c;
      if i > 0 {
        assert items[1..][i - 1].0 == c;
      }
    }
    forall c | c in Columns(items[1..]) ensures c in Columns(items) {
      var i :| 0 <= i < |items[1..]| && items[1..][i].0 == c;
      assert items[i + 1].0 == c;
    }
  }

  /** The SET list applied to one row: the named columns take the item values, the rest keep theirs. */
  function Patch(row: Row, items: Items): (r: Row)
    ensures r.Keys == row.Keys + Columns(items)
    ensures forall c :: c in row && c !in Columns(items) ==> r[c] == row[c]
    ensures DistinctColumns(items) ==> forall i :: 0 <= i < |items| ==> r[items[i].0] == items[i].1
    decreases |items|
  {
    if items == [] then row
    else
      ColumnsOfCons(items);
      var r := Patch(row[items[0].0 := items[0].1], items[1..]);
      assert DistinctColumns(items) ==> items[0].0 !in Columns(items[1..]) && r[items[0].0] == items[0].1 by {
        if DistinctColumns(items) {
          forall j | 0 <= j < |items[1..]| ensures items[1..][j].0 != items[0].0 {
            assert items[1..][j] == items[j + 1];
          }
        }
      }
      assert DistinctColumns(items) ==> forall i :: 1 <= i < |items| ==> r[items[i].0] == items[i].1 by {
        if DistinctColumns(items) {
          assert DistinctColumns(items[1..]) by {
            forall i, j | 0 <= i < j < |items[1..]| ensures items[1..][i].0 != items[1..][j].0 {
              assert items[1..][i] == items[i + 1] && items[1..][j] == items[j + 1];
            }
          }
          forall i | 1 <= i < |items| ensures r[items[i].0] == items[i].1 {
            assert items[1..][i - 1] == items[i];
          }
        }
      }
      r
  }

  /** Errors PostgreSQL reports for an UPDATE statement before it looks at any row. */
  function StatementError(s: Schema, items: Items): (r: Option<StoreError>)
    ensures r.None? <==> items != [] && Columns(items) <= s.columns && DistinctColumns(items)
    ensures items == [] ==> r == Some(SyntaxError)
  {
    if items == [] then Some(SyntaxError)
    else if !(Columns(items) <= s.columns) then Some(UndefinedColumn)
    else if !DistinctColumns(items) then Some(DuplicateAssignment)
    else None
  }

  /** A row whose new key is free of clashes is filed under a key no other row uses. */
  lemma FreshKey(s: Schema, others: Rows, row: Row)
    requires Valid(s, others) && s.keyColumn in row && row[s.keyColumn] != Null && !Clashes(s, others, row)
    ensures row[s.keyColumn] !in others
  {
  }

  /**
    * `UPDATE <table> SET ... WHERE <key>=$N+1 RETURNING *`: the keyed row, if
    * any, takes the item values; nothing else changes. The row moves when the
    * items change its key.
    */
  function UpdateByKey(s: Schema, rows: Rows, key: Value, items: Items): (o: Outcome)
    requires Valid(s, rows)
    ensures o.NoRow? <==> StatementError(s, items).None? && key !in rows
    ensures o.Failed? && StatementError(s, items).Some? ==> o.error == StatementError(s, items).value
    ensures o.Done? ==> StatementError(s, items).None? && key in rows && o.row.Keys == s.columns
    ensures o.Done? ==> forall c :: c in s.columns && c !in Columns(items) ==> o.row[c] == rows[key][c]
    ensures o.Done? ==> forall i :: 0 <= i < |items| ==> o.row[items[i].0] == items[i].1
    ensures o.Done? ==> o.rows.Keys == rows.Keys - {key} + {o.row[s.keyColumn]} && o.rows[o.row[s.keyColumn]] == o.row
    ensures o.Done? ==> forall k :: k in rows && k != key ==> k in o.rows && o.rows[k] == rows[k]
  {
    match StatementError(s, items)
    case Some(e) => Failed(e)
    case None =>
      if key !in rows then NoRow
      else
        var row := Patch(rows[key], items);
        var others := rows - {key};
        if row[s.keyColumn] == Null then Failed(NotNullViolation)
        else if Clashes(s, others, row) then Failed(UniqueViolation)
        else
          FreshKey(s, others, row);
          Done(row, others[row[s.keyColumn] := row])
  }

  /** A readable statement updates this table and filters by its key column. */
  predicate Targets(s: Schema, q: Query) {
    var u := UpdateText.ReadUpdate(q);
    u.Some? ==> u.value.table == s.name && u.value.keyColumn == s.keyColumn
  }

  /**
    * The store running an UPDATE statement on this table: text it cannot read
    * is a syntax error; otherwise the keyed row takes the column/value pairs
    * the text denotes.
    */
  function Execute(s: Schema, rows: Rows, q: Query): (o: Outcome)
    requires Valid(s, rows) && Targets(s, q)
    ensures UpdateText.ReadUpdate(q).None? ==> o == Failed(SyntaxError)
    ensures o.NoRow? ==> UpdateText.ReadUpdate(q).Some? && UpdateText.ReadUpdate(q).value.key !in rows
    ensures o.Done? ==> UpdateText.ReadUpdate(q).Some? && UpdateText.ReadUpdate(q).value.key in rows
  {
    match UpdateText.ReadUpdate(q)
    case None => Failed(SyntaxError)
    case Some(u) => UpdateByKey(s, rows, u.key, u.items)
  }

  /** Whatever the items, the builder's statement targets the table it was built for, at the given key. */
  lemma BuiltTargets(s: Schema, items: Items, key: Value)
    requires UpdateText.Name(s.name) && UpdateText.Name(s.keyColumn)
    ensures var q := SqlForPartialUpdate(s.name, items, s.keyColumn, key);
      Targets(s, q) && (UpdateText.ReadUpdate(q).Some? ==> UpdateText.ReadUpdate(q).value.key == key)
  {
    UpdateText.ReadBuiltFrame(s.name, items, s.keyColumn, key);
  }

  /**
    * Running the builder's statement is the keyed update with the items that
    * are not dropped, when they are named by plain names.
    */
  lemma ExecuteBuilt(s: Schema, rows: Rows, items: Items, key: Value)
    requires Valid(s, rows) && UpdateText.Name(s.name) && UpdateText.Name(s.keyColumn)
    ensures var q := SqlForPartialUpdate(s.name, items, s.keyColumn, key);
      && Targets(s, q)
      && (UpdateText.Named(Fields(items)) ==> Execute(s, rows, q) == UpdateByKey(s, rows, key, Fields(items)))
  {
    UpdateText.ReadBuiltFrame(s.name, items, s.keyColumn, key);
    UpdateText.ReadBuilt(s.name, items, s.keyColumn, key);
  }

  /** `INSERT ... RETURNING *` of a complete row. */
  function Insert(s: Schema, rows: Rows, row: Row): (o: Outcome)
    requires Valid(s, rows) && row.Keys == s.columns
    ensures o.Done? <==> row[s.keyColumn] != Null && !Clashes(s, rows, row)
    ensures o.Done? ==> o.row == row && row[s.keyColumn] !in rows && o.rows == rows[row[s.keyColumn] := row]
    ensures !o.Done? ==> o == Failed(if row[s.keyColumn] == Null then NotNullViolation else UniqueViolation)
  {
    if row[s.keyColumn] == Null then Failed(NotNullViolation)
    else if Clashes(s, rows, row) then Failed(UniqueViolation)
    else
      FreshKey(s, rows, row);
      Done(row, rows[row[s.keyColumn] := row])
  }

  /** `DELETE FROM <table> WHERE <key> = $1 RETURNING *`. */
  function DeleteByKey(rows: Rows, key: Value): (o: Outcome)
    ensures o.Done? <==> key in rows
    ensures !o.Done? ==> o.NoRow?
    ensures o.Done? ==> o.row == rows[key] && o.rows.Keys == rows.Keys - {key}
    ensures o.Done? ==> forall k :: k in o.rows ==> o.rows[k] == rows[k]
  {
    if key in rows then Done(rows[key], rows - {key}) else NoRow
  }

  /** `SELECT <columns> FROM <table> WHERE <keep>`, one result row per stored row. */
  function Select(rows: Rows, keep: Row -> bool, columns: set<string>): (r: Rows)
    ensures forall k :: k in r <==> k in rows && keep(rows[k])
    ensures forall k :: k in r ==> r[k] == Project(rows[k], columns)
  {
    map k | k in rows && keep(rows[k]) :: Project(rows[k], columns)
  }

  /** Filing a complete, non-clashing row under its own non-null key keeps a table valid. */
  lemma AddKeepsValid(s: Schema, others: Rows, row: Row)
    requires Valid(s, others) && row.Keys == s.columns && row[s.keyColumn] != Null && !Clashes(s, others, row)
    ensures Valid(s, others[row[s.keyColumn] := row])
  {
    var k := row[s.keyColumn];
    var after := others[k := row];
    FreshKey(s, others, row);
    forall k1, k2, c | k1 in after && k2 in after && k1 != k2 && c in s.unique && c in after[k1] && c in after[k2]
      && after[k1][c] != Null
      ensures after[k1][c] != after[k2][c]
    {
      if k1 == k || k2 == k {
        var other := if k1 == k then k2 else k1;
        assert other in others && after[other] == others[other];
      }
    }
  }

  lemma InsertKeepsValid(s: Schema, rows: Rows, row: Row)
    requires Valid(s, rows) && row.Keys == s.columns
    ensures Insert(s, rows, row).Done? ==> Valid(s, Insert(s, rows, row).rows)
  {
    if Insert(s, rows, row).Done? {
      AddKeepsValid(s, rows, row);
    }
  }

  lemma UpdateKeepsValid(s: Schema, rows: Rows, key: Value, items: Items)
    requires Valid(s, rows)
    ensures UpdateByKey(s, rows, key, items).Done? ==> Valid(s, UpdateByKey(s, rows, key, items).rows)
  {
    var o := UpdateByKey(s, rows, key, items);
    if o.Done? {
      UpdateRefiles(s, rows, key, items);
      RemoveKeepsValid(s, rows, key);
      AddKeepsValid(s, rows - {key}, o.row);
    }
  }

  /** A successful update files the patched row, complete and clash-free, in place of the keyed one. */
  lemma UpdateRefiles(s: Schema, rows: Rows, key: Value, items: Items)
    requires Valid(s, rows) && UpdateByKey(s, rows, key, items).Done?
    ensures var o := UpdateByKey(s, rows, key, items);
      && o.row.Keys == s.columns && o.row[s.keyColumn] != Null && !Clashes(s, rows - {key}, o.row)
      && o.rows == (rows - {key})[o.row[s.keyColumn] := o.row]
  {
  }

  /** Taking a row out keeps a table valid. */
  lemma RemoveKeepsValid(s: Schema, rows: Rows, key: Value)
    requires Valid(s, rows)
    ensures Valid(s, rows - {key})
  {
  }

  lemma DeleteKeepsValid(s: Schema, rows: Rows, key: Value)
    requires Valid(s, rows)
    ensures DeleteByKey(rows, key).Done? ==> Valid(s, DeleteByKey(rows, key).rows)
  {
  }

  /** A successful statement keeps the table valid. */
  lemma ExecuteKeepsValid(s: Schema, rows: Rows, q: Query)
    requires Valid(s, rows) && Targets(s, q)
    ensures Execute(s, rows, q).Done? ==> Valid(s, Execute(s, rows, q).rows)
  {
    match UpdateText.ReadUpdate(q)
    case None =>
    case Some(u) => UpdateKeepsValid(s, rows, u.key, u.items);
  }

  /** Applying the same SET list twice gives the row applying it once gives. */
  lemma PatchIdempotent(row: Row, items: Items)
    requires DistinctColumns(items)
    ensures Patch(Patch(row, items), items) == Patch(row, items)
  {
    var once := Patch(row, items);
    var twice := Patch(once, items);
    forall c | c in twice ensures c in once && twice[c] == once[c] {
      if c in Columns(items) {
        var i :| 0 <= i < |items| && items[i].0 == c;
      }
    }
  }

  /**
    * Updating the same row again with the same items changes nothing: the
    * second statement returns the same row and leaves the same table.
    */
  lemma UpdateIdempotent(s: Schema, rows: Rows, key: Value, items: Items)
    requires Valid(s, rows)
    ensures var o := UpdateByKey(s, rows, key, items);
      o.Done? ==> Valid(s, o.rows) && UpdateByKey(s, o.rows, o.row[s.keyColumn], items) == o
  {
    var o := UpdateByKey(s, rows, key, items);
    if o.Done? {
      UpdateKeepsValid(s, rows, key, items);
      var row, after := o.row, o.rows;
      var k := row[s.keyColumn];
      var others := rows - {key};
      assert row == Patch(rows[key], items) && !Clashes(s, others, row) && after == others[k := row];
      FreshKey(s, others, row);
      RefileSame(others, k, row);
      PatchIdempotent(rows[key], items);
      assert Patch(after[k], items) == row;
      assert UpdateByKey(s, after, k, items) == Done(row, others[k := row]);
    }
  }

  /** Filing a row under a fresh key and taking it out again gives back the table. */
  lemma RefileSame(others: Rows, k: Value, row: Row)
    requires k !in others
    ensures k in others[k := row] && others[k := row][k] == row && others[k := row] - {k} == others
  {
  }

  /**
    * Setting one column outside every UNIQUE constraint on a stored row always
    * succeeds and changes that one cell only.
    */
  lemma UpdateOneColumn(s: Schema, rows: Rows, key: Value, c: string, v: Value)
    requires Valid(s, rows) && key in rows && c in s.columns && c !in s.unique
    ensures UpdateByKey(s, rows, key, [(c, v)]) == Done(rows[key][c := v], rows[key := rows[key][c := v]])
  {
    var items: Items := [(c, v)];
    assert Columns(items) == {c} by {
      assert items[0].0 == c;
    }
    var old_row, row := rows[key], rows[key][c := v];
    assert Patch(old_row, items) == row;
    var others := rows - {key};
    assert row[s.keyColumn] == key;
    forall k2, u | k2 in others && u in s.unique && u in row && u in others[k2] && row[u] != Null
      ensures row[u] != others[k2][u]
    {
      assert row[u] == old_row[u];
    }
    assert !Clashes(s, others, row);
    assert others[key := row] == rows[key := row];
  }
  /**
    * A row that keeps every UNIQUE value of the row stored at `key` clashes
    * with none of the other rows.
    */
  lemma KeepsUniqueNoClash(s: Schema, rows: Rows, key: Value, row: Row)
    requires Valid(s, rows) && key in rows
    requires forall u :: u in s.unique && u in row ==> u in rows[key] && row[u] == rows[key][u]
    ensures !Clashes(s, rows - {key}, row)
  {
    var others := rows - {key};
    forall k2, u | k2 in others && u in s.unique && u in row && u in others[k2] && row[u] != Null
      ensures row[u] != others[k2][u]
    {
      assert rows[key][u] == row[u];
    }
  }

  /**
    * A well-formed SET list outside every UNIQUE column always updates a
    * stored row: the row is patched in place and no other row changes.
    */
  lemma UpdateOutsideUnique(s: Schema, rows: Rows, key: Value, items: Items)
    requires Valid(s, rows) && key in rows && StatementError(s, items).None? && Columns(items) !! s.unique
    ensures UpdateByKey(s, rows, key, items) == Done(Patch(rows[key], items), rows[key := Patch(rows[key], items)])
  {
    var old_row := rows[key];
    var row := Patch(old_row, items);
    assert forall u :: u in s.unique ==> u in s.columns && u !in Columns(items);
    assert row[s.keyColumn] == old_row[s.keyColumn] == key;
    KeepsUniqueNoClash(s, rows, key, row);
    RefileStored(rows, key, row);
  }

  /** Taking a stored row out and filing another under its key replaces it. */
  lemma RefileStored(rows: Rows, key: Value, row: Row)
    requires key in rows
    ensures (rows - {key})[key := row] == rows[key := row]
  {
  }
}

=== FILE: update_text.dfy ===
/**
  * How the store reads a partial-update statement: the text
  * `UPDATE <table> SET <c1>=$<n1>, ..., <cN>=$<nN> WHERE <key>=$<m> RETURNING *`
  * together with its bound values denotes the table, the column/value pairs
  * (each placeholder `$n` standing for the n-th bound value), the key column
  * and the key value. The statement the builder produces is read back as
  * exactly its fields and its key.
  */
module UpdateText {
  import opened SqlValues
  import Decimal
  import opened PartialUpdate

  /** A name the statement carries unquoted: non-empty, without `=`, `,` or a space. */
  predicate Name(s: string) {
    s != [] && forall i :: 0 <= i < |s| ==> s[i] != '=' && s[i] != ',' && s[i] != ' '
  }

  /** Every item is named by a Name. */
  predicate Named(items: Items) {
    forall i :: 0 <= i < |items| ==> Name(items[i].0)
  }

  /**
    * An unquoted identifier as PostgreSQL keeps it: a lower-case letter or `_`
    * followed by lower-case letters, digits and `_`. Upper-case letters in an
    * unquoted name are folded by PostgreSQL, so only these names mean the
    * column they spell. Every Identifier is a Name.
    */
  predicate Identifier(s: string) {
    && Name(s) && (('a' <= s[0] <= 'z') || s[0] == '_')
    && forall i :: 0 <= i < |s| ==> ('a' <= s[i] <= 'z') || ('0' <= s[i] <= '9') || s[i] == '_'
  }

  /** Every item is named by an Identifier. */
  predicate Identifiers(items: Items) {
    forall i :: 0 <= i < |items| ==> Identifier(items[i].0)
  }

  /** What an UPDATE statement denotes. */
  datatype Update = Update(table: string, items: Items, keyColumn: string, key: Value)

  /** The text between the fixed words of the statement, and the number of the WHERE placeholder. */
  datatype Frame = Frame(table: string, setList: string, keyColumn: string, last: nat)

  /** The first position of `c` in `s`, or `|s|` when there is none. */
  function IndexOf(s: string, c: char): (i: nat)
    ensures i <= |s| && (i < |s| ==> s[i] == c)
    ensures forall j :: 0 <= j < i ==> s[j] != c
  {
    if s == [] || s[0] == c then 0 else 1 + IndexOf(s[1..], c)
  }

  /** The last position of `c` in `s`, if any. */
  function LastIndexOf(s: string, c: char): (r: Option<nat>)
    ensures r.Some? ==> r.value < |s| && s[r.value] == c && forall j :: r.value < j < |s| ==> s[j] != c
    ensures r.None? ==> forall j :: 0 <= j < |s| ==> s[j] != c
  {
    if s == [] then None
    else if s[|s| - 1] == c then Some(|s| - 1)
    else LastIndexOf(s[..|s| - 1], c)
  }

  lemma FirstAfter(a: string, c: char, b: string)
    requires forall j :: 0 <= j < |a| ==> a[j] != c
    ensures IndexOf(a + [c] + b, c) == |a|
  {
    var s := a + [c] + b;
    assert s[|a|] == c;
    assert forall j :: 0 <= j < |a| ==> s[j] == a[j];
  }

  lemma {:induction false} LastBefore(a: string, c: char, b: string)
    requires forall j :: 0 <= j < |b| ==> b[j] != c
    ensures LastIndexOf(a + [c] + b, c) == Some(|a|)
    decreases |b|
  {
    var s := a + [c] + b;
    if b == [] {
      assert s[|s| - 1] == c;
    } else {
      var b' := b[..|b| - 1];
      assert s[|s| - 1] == b[|b| - 1] && s[..|s| - 1] == a + [c] + b';
      LastBefore(a, c, b');
    }
  }

  /** The statement without its fixed first word `UPDATE ` and its fixed end ` RETURNING *`. */
  function Unwrap(text: string): Option<string> {
    if |text| < 19 || text[..7] != "UPDATE " || text[|text| - 12..] != " RETURNING *" then None
    else Some(text[7..|text| - 12])
  }

  /** The table name, up to the first space, and what follows ` SET `. */
  function SplitTable(body: string): Option<(string, string)> {
    var t := IndexOf(body, ' ');
    if |body| - t < 5 || body[t..t + 5] != " SET " || !Name(body[..t]) then None
    else Some((body[..t], body[t + 5..]))
  }

  /** The digits after the last `$`, which must follow an `=`, and the text before that `=`. */
  function SplitPlaceholder(mid: string): Option<(string, nat)> {
    match LastIndexOf(mid, '$')
    case None => None
    case Some(p) =>
      if p == 0 || mid[p - 1] != '=' || mid[p + 1..] == [] || !Decimal.AllDigits(mid[p + 1..]) then None
      else Some((mid[..p - 1], Decimal.Read(mid[p + 1..])))
  }

  /** The key column after the last space, preceded by ` WHERE `, and the SET list before it. */
  function SplitWhere(pre: string): Option<(string, string)> {
    match LastIndexOf(pre, ' ')
    case None => None
    case Some(sp) =>
      if sp < 6 || pre[sp - 6..sp + 1] != " WHERE " || !Name(pre[sp + 1..]) then None
      else Some((pre[..sp - 6], pre[sp + 1..]))
  }

  /**
    * The fixed words: `UPDATE `, the table up to the first space, ` SET `, and
    * from the end ` RETURNING *`, the WHERE placeholder after the last `$`,
    * the `=` before it, and the key column after the last space before that,
    * preceded by ` WHERE `. The text in between is the SET list.
    */
  function ReadFrame(text: string): Option<Frame> {
    match Unwrap(text)
    case None => None
    case Some(body) =>
      match SplitTable(body)
      case None => None
      case Some((table, mid)) =>
        match SplitPlaceholder(mid)
        case None => None
        case Some((pre, last)) =>
          match SplitWhere(pre)
          case None => None
          case Some((setList, keyColumn)) => Some(Frame(table, setList, keyColumn, last))
  }

  /** The digits up to the next comma, as a number, and the text from that comma on. */
  function SplitNumber(rest: string): (r: Option<(nat, string)>)
    ensures r.Some? ==> |r.value.1| < |rest|
  {
    var j := IndexOf(rest, ',');
    if j == 0 || !Decimal.AllDigits(rest[..j]) then None
    else Some((Decimal.Read(rest[..j]), rest[j..]))
  }

  /** The first assignment `c=$n` of a SET list: its column, its number and the text after its digits. */
  function SplitAssignment(s: string): (r: Option<(string, nat, string)>)
    ensures r.Some? ==> |r.value.2| < |s|
  {
    var i := IndexOf(s, '=');
    if i + 1 >= |s| || s[i + 1] != '$' || !Name(s[..i]) then None
    else
      match SplitNumber(s[i + 2..])
      case None => None
      case Some((n, tail)) => Some((s[..i], n, tail))
  }

  /** The SET list `c1=$n1, c2=$n2, ...` as (column, placeholder number) pairs; an empty list is an error. */
  function ReadSets(s: string): Option<seq<(string, nat)>>
    decreases |s|
  {
    match SplitAssignment(s)
    case None => None
    case Some((c, n, rest)) =>
      if rest == [] then Some([(c, n)])
      else if |rest| < 2 || rest[..2] != ", " then None
      else
        match ReadSets(rest[2..])
        case None => None
        case Some(more) => Some([(c, n)] + more)
  }

  /** Each placeholder number replaced by the value bound to it; a number with no value is an error. */
  function Bind(sets: seq<(string, nat)>, values: seq<Value>): Option<Items> {
    if sets == [] then Some([])
    else if !(1 <= sets[0].1 <= |values|) then None
    else
      match Bind(sets[1..], values)
      case None => None
      case Some(more) => Some([(sets[0].0, values[sets[0].1 - 1])] + more)
  }

  /** The statement a query denotes, or None when the store cannot read it. */
  function ReadUpdate(q: Query): Option<Update> {
    match ReadFrame(q.query)
    case None => None
    case Some(f) => ReadBody(f, q.values)
  }

  /** The statement a read frame denotes with the bound values: the WHERE placeholder and the SET list bound. */
  function ReadBody(f: Frame, values: seq<Value>): Option<Update> {
    if !(1 <= f.last <= |values|) then None
    else
      match ReadSets(f.setList)
      case None => None
      case Some(sets) =>
        match Bind(sets, values)
        case None => None
        case Some(items) => Some(Update(f.table, items, f.keyColumn, values[f.last - 1]))
  }

  /** The SET list numbered from `first`, as the builder writes it. */
  function Numbered(items: Items, first: nat): (r: seq<(string, nat)>)
    ensures |r| == |items|
    ensures forall i :: 0 <= i < |items| ==> r[i] == (items[i].0, first + i)
  {
    if items == [] then [] else [(items[0].0, first)] + Numbered(items[1..], first + 1)
  }

  lemma DigitsAreNames(n: nat)
    ensures forall j :: 0 <= j < |Decimal.Show(n)| ==> Decimal.Show(n)[j] != ',' && Decimal.Show(n)[j] != '$'
  {
    var d := Decimal.Show(n);
    assert forall j :: 0 <= j < |d| ==> Decimal.IsDigit(d[j]);
  }

  lemma UnwrapBuilt(body: string)
    ensures Unwrap("UPDATE " + body + " RETURNING *") == Some(body)
  {
    var text := "UPDATE " + body + " RETURNING *";
    assert text[..7] == "UPDATE " && text[|text| - 12..] == " RETURNING *" && text[7..|text| - 12] == body;
  }

  lemma SplitTableBuilt(table: string, rest: string)
    requires Name(table)
    ensures SplitTable(table + " SET " + rest) == Some((table, rest))
  {
    var body := table + " SET " + rest;
    FirstAfter(table, ' ', "SET " + rest);
    assert table + [' '] + ("SET " + rest) == body;
    var t := |table|;
    assert body[t..t + 5] == " SET " && body[..t] == table && body[t + 5..] == rest;
  }

  lemma SplitPlaceholderBuilt(pre: string, n: nat)
    ensures SplitPlaceholder(pre + "=" + Placeholder(n)) == Some((pre, n))
  {
    var digits := Decimal.Show(n);
    var mid := pre + "=" + Placeholder(n);
    DigitsAreNames(n);
    LastBefore(pre + "=", '$', digits);
    assert pre + "=" + ['$'] + digits == mid;
    var p := |pre| + 1;
    assert mid[p + 1..] == digits && mid[p - 1] == '=' && mid[..p - 1] == pre;
    Decimal.ReadShow(n);
  }

  lemma SplitWhereBuilt(setList: string, key: string)
    requires Name(key)
    ensures SplitWhere(setList + " WHERE " + key) == Some((setList, key))
  {
    var pre := setList + " WHERE " + key;
    LastBefore(setList + " WHERE", ' ', key);
    assert setList + " WHERE" + [' '] + key == pre;
    var sp := |setList| + 6;
    assert pre[sp - 6..sp + 1] == " WHERE " && pre[sp + 1..] == key && pre[..sp - 6] == setList;
  }

  /** Whatever the SET list holds, the fixed words around it are read back as the builder wrote them. */
  lemma ReadFrameBuilt(table: string, setList: string, key: string, n: nat)
    requires Name(table) && Name(key)
    ensures ReadFrame(UpdateHead(table) + setList + UpdateTail(key, n)) == Some(Frame(table, setList, key, n))
  {
    var pre := setList + " WHERE " + key;
    var mid := pre + "=" + Placeholder(n);
    var body := table + " SET " + mid;
    assert UpdateHead(table) + setList + UpdateTail(key, n) == "UPDATE " + body + " RETURNING *";
    UnwrapBuilt(body);
    SplitTableBuilt(table, mid);
    SplitPlaceholderBuilt(pre, n);
    SplitWhereBuilt(setList, key);
  }

  /** A character absent from `s` is found at `|s|`. */
  lemma Absent(s: string, c: char)
    requires forall j :: 0 <= j < |s| ==> s[j] != c
    ensures IndexOf(s, c) == |s|
  {
  }

  lemma SplitNumberOf(digits: string, tail: string)
    requires digits != [] && Decimal.AllDigits(digits)
    requires tail == [] || tail[0] == ','
    ensures SplitNumber(digits + tail) == Some((Decimal.Read(digits), tail))
  {
    var rest := digits + tail;
    assert forall j :: 0 <= j < |digits| ==> digits[j] != ',' by {
      assert forall j :: 0 <= j < |digits| ==> Decimal.IsDigit(digits[j]);
    }
    if tail == [] {
      assert rest == digits;
      Absent(digits, ',');
    } else {
      FirstAfter(digits, ',', tail[1..]);
      assert digits + [','] + tail[1..] == rest;
    }
    assert rest[..|digits|] == digits && rest[|digits|..] == tail;
  }

  /** One assignment `c=$digits` followed by the rest of the list, or by nothing. */
  lemma SplitAssignmentOf(c: string, rest: string, digits: string, tail: string)
    requires Name(c) && digits != [] && Decimal.AllDigits(digits)
    requires tail == [] || tail[0] == ','
    requires rest == digits + tail
    ensures SplitAssignment(c + ['='] + (['$'] + rest)) == Some((c, Decimal.Read(digits), tail))
  {
    var s := c + ['='] + (['$'] + rest);
    FirstAfter(c, '=', ['$'] + rest);
    var i := |c|;
    assert s[..i] == c;
    assert s[i + 1] == '$';
    assert s[i + 2..] == rest;
    SplitNumberOf(digits, tail);
  }

  lemma AssignmentBuilt(c: string, n: nat, tail: string)
    requires Name(c)
    requires tail == [] || tail[0] == ','
    ensures SplitAssignment(c + "=" + Placeholder(n) + tail) == Some((c, n, tail))
  {
    var rest := Decimal.Show(n) + tail;
    assert c + "=" + Placeholder(n) + tail == c + ['='] + (['$'] + rest);
    SplitAssignmentOf(c, rest, Decimal.Show(n), tail);
    Decimal.ReadShow(n);
  }

  /** A SET list whose first assignment is known is read as that pair and the rest. */
  lemma ReadSetsStep(s: string, c: string, n: nat, tail: string)
    requires SplitAssignment(s) == Some((c, n, tail))
    requires tail == [] || (|tail| >= 2 && tail[..2] == ", ")
    ensures tail == [] ==> ReadSets(s) == Some([(c, n)])
    ensures tail != [] ==> ReadSets(s) == match ReadSets(tail[2..]) case None => None case Some(more) => Some([(c, n)] + more)
  {
  }

  lemma JoinStep(parts: seq<string>)
    requires |parts| >= 2
    ensures Join(", ", parts) == parts[0] + (", " + Join(", ", parts[1..]))
  {
  }

  /** The builder's SET list is read back as the fields' columns numbered from `first`. */
  lemma {:induction false} ReadSetList(items: Items, first: nat)
    requires items != [] && Named(items)
    ensures ReadSets(Join(", ", Assignments(items, first))) == Some(Numbered(items, first))
    decreases |items|
  {
    var parts := Assignments(items, first);
    var c := items[0].0;
    var head := c + "=" + Placeholder(first);
    assert parts[0] == head && Name(c);
    if |items| == 1 {
      AssignmentBuilt(c, first, []);
      assert head + [] == head == Join(", ", parts);
      ReadSetsStep(head, c, first, []);
      assert Numbered(items, first) == [(c, first)];
    } else {
      var rest := Join(", ", Assignments(items[1..], first + 1));
      assert parts[1..] == Assignments(items[1..], first + 1);
      assert Named(items[1..]) by {
        forall i | 0 <= i < |items| - 1 ensures Name(items[1..][i].0) {
          assert items[1..][i] == items[i + 1];
        }
      }
      ReadSetList(items[1..], first + 1);
      var tail := ", " + rest;
      AssignmentBuilt(c, first, tail);
      assert tail[..2] == ", " && tail[2..] == rest;
      JoinStep(parts);
      ReadSetsStep(head + tail, c, first, tail);
      assert Numbered(items, first) == [(c, first)] + Numbered(items[1..], first + 1);
    }
  }

  /** A numbered list is its first pair and the rest numbered from the next number. */
  lemma NumberedStep(items: Items, first: nat)
    requires items != []
    ensures Numbered(items, first) == [(items[0].0, first)] + Numbered(items[1..], first + 1)
  {
    var ns, rest := Numbered(items, first), Numbered(items[1..], first + 1);
    assert |ns| == 1 + |rest|;
    forall i | 0 <= i < |ns| ensures ns[i] == ([(items[0].0, first)] + rest)[i] {
      if i > 0 {
        assert rest[i - 1] == (items[i].0, first + i);
      }
    }
  }

  lemma Regroup(a: seq<Value>, x: Value, r: seq<Value>, b: seq<Value>)
    ensures a + ([x] + r) + b == a + [x] + r + b
  {
  }

  /** Binding a non-empty list binds its first number, then the rest. */
  lemma BindStep(sets: seq<(string, nat)>, values: seq<Value>, more: Items)
    requires sets != [] && 1 <= sets[0].1 <= |values| && Bind(sets[1..], values) == Some(more)
    ensures Bind(sets, values) == Some([(sets[0].0, values[sets[0].1 - 1])] + more)
  {
  }

  /**
    * Binding the numbers after those of the values `before` gives back the
    * items whose values follow `before`.
    */
  lemma {:induction false} BindNumbered(items: Items, before: seq<Value>, after: seq<Value>)
    ensures Bind(Numbered(items, |before| + 1), before + ItemValues(items) + after) == Some(items)
    decreases |items|
  {
    if items != [] {
      var values := before + ItemValues(items) + after;
      BindNumbered(items[1..], before + [items[0].1], after);
      assert ItemValues(items) == [items[0].1] + ItemValues(items[1..]);
      Regroup(before, items[0].1, ItemValues(items[1..]), after);
      assert values[|before|] == items[0].1;
      BindNumberedStep(items, |before| + 1, values);
    }
  }

  /** The step of BindNumbered: the first number bound to the first item's value, the rest bound. */
  lemma BindNumberedStep(items: Items, first: nat, values: seq<Value>)
    requires items != [] && 1 <= first <= |values| && values[first - 1] == items[0].1
    requires Bind(Numbered(items[1..], first + 1), values) == Some(items[1..])
    ensures Bind(Numbered(items, first), values) == Some(items)
  {
    var sets := Numbered(items, first);
    NumberedStep(items, first);
    assert sets[1..] == Numbered(items[1..], first + 1);
    BindStep(sets, values, items[1..]);
    assert items == [(items[0].0, items[0].1)] + items[1..];
  }

  /** A text whose frame is read denotes what that frame denotes with the bound values. */
  lemma {:induction false} ReadFramed(text: string, values: seq<Value>, f: Frame)
    requires ReadFrame(text) == Some(f)
    ensures ReadUpdate(Query(text, values)) == ReadBody(f, values)
  {
  }

  /** The builder's frame over named, non-empty fields, with their values and the key value bound. */
  lemma {:induction false} ReadFields(table: string, fields: Items, key: string, id: Value)
    requires fields != [] && Named(fields)
    ensures var f := Frame(table, Join(", ", Assignments(fields, 1)), key, |fields| + 1);
      ReadBody(f, ItemValues(fields) + [id]) == Some(Update(table, fields, key, id))
  {
    var values := ItemValues(fields) + [id];
    ReadSetList(fields, 1);
    BindNumbered(fields, [], [id]);
    assert [] + ItemValues(fields) + [id] == values;
    assert values[|fields|] == id;
  }

  /**
    * The builder's statement on a table and key column that are Names: with
    * no fields left it cannot be read (an empty SET list); otherwise, when
    * every field is named by a Name, it denotes exactly the fields and the
    * key value.
    */
  lemma {:induction false} ReadBuilt(table: string, items: Items, key: string, id: Value)
    requires Name(table) && Name(key)
    ensures var u := ReadUpdate(SqlForPartialUpdate(table, items, key, id));
      && (Fields(items) == [] ==> u.None?)
      && (Fields(items) != [] && Named(Fields(items)) ==> u == Some(Update(table, Fields(items), key, id)))
  {
    var fields := Fields(items);
    var setList := Join(", ", Assignments(fields, 1));
    var text := UpdateHead(table) + setList + UpdateTail(key, |fields| + 1);
    var values := ItemValues(fields) + [id];
    assert SqlForPartialUpdate(table, items, key, id) == Query(text, values);
    ReadFrameBuilt(table, setList, key, |fields| + 1);
    ReadFramed(text, values, Frame(table, setList, key, |fields| + 1));
    if fields == [] {
      assert setList == [];
    } else if Named(fields) {
      ReadFields(table, fields, key, id);
    }
  }

  /** Whatever the items, a readable built statement names the builder's table, key column and key value. */
  lemma {:induction false} ReadBuiltFrame(table: string, items: Items, key: string, id: Value)
    requires Name(table) && Name(key)
    ensures var u := ReadUpdate(SqlForPartialUpdate(table, items, key, id));
      u.Some? ==> u.value.table == table && u.value.keyColumn == key && u.value.key == id
  {
    var fields := Fields(items);
    var setList := Join(", ", Assignments(fields, 1));
    var text := UpdateHead(table) + setList + UpdateTail(key, |fields| + 1);
    var values := ItemValues(fields) + [id];
    assert SqlForPartialUpdate(table, items, key, id) == Query(text, values);
    ReadFrameBuilt(table, setList, key, |fields| + 1);
    ReadFramed(text, values, Frame(table, setList, key, |fields| + 1));
    assert values[|fields|] == id;
  }
}

=== FILE: users.dfy ===
/** The User model: create with a hashed password, the two reads, update and delete on `users`. */
module Users {
  import opened SqlValues
  import opened PartialUpdate
  import Table
  import UpdateText

  const TAKEN := "Username or email taken."
  const USER_NOT_FOUND := "User not found."
  /** The message `User.update` actually raises for an absent username. */
  const JOB_NOT_FOUND := "Job not found."
  const DELETED := "User deleted"

  const COLUMNS: set<string> := {"username", "password", "first_name", "last_name", "email", "photo_url", "is_admin"}
  const SCHEMA := Table.Schema("users", "username", COLUMNS, {"username", "email"})

  /** What create and get return: every column but the password and the admin flag. */
  const PROFILE: set<string> := {"username", "first_name", "last_name", "email", "photo_url"}
  /** What getAll returns. */
  const LISTED: set<string> := {"username", "first_name", "last_name", "email"}

  /** The table `User.delete` names; `user` is a reserved word in PostgreSQL. */
  const DELETE_TABLE_AS_WRITTEN := "user"
  const TABLE := "users"

  /**
    * The row `INSERT INTO users (username, password, first_name, last_name,
    * email, photo_url)` stores: the password already hashed, `is_admin` at its
    * default of false.
    */
  function NewUser(username: string, hashed: string, firstName: string, lastName: string, email: string, photoUrl: Option<string>)
    : (r: Row)
    ensures r.Keys == COLUMNS
    ensures r["username"] == Text(username) && r["password"] == Text(hashed) && r["email"] == Text(email)
    ensures r["first_name"] == Text(firstName) && r["last_name"] == Text(lastName)
    ensures (r["photo_url"] == Null <==> photoUrl.None?) && r["is_admin"] == Bool(false)
    ensures photoUrl.Some? ==> r["photo_url"] == Text(photoUrl.value)
  {
    map["username" := Text(username), "password" := Text(hashed), "first_name" := Text(firstName),
        "last_name" := Text(lastName), "email" := Text(email), "photo_url" := TextOrNull(photoUrl),
        "is_admin" := Bool(false)]
  }

  /** With the username free, a new user clashes exactly when its email is already stored. */
  lemma ClashMeansEmailTaken(rows: Table.Rows, username: string, hashed: string, firstName: string, lastName: string, email: string, photoUrl: Option<string>)
    requires Table.Valid(SCHEMA, rows) && Text(username) !in rows
    ensures Table.Clashes(SCHEMA, rows, NewUser(username, hashed, firstName, lastName, email, photoUrl))
        <==> exists k :: k in rows && rows[k]["email"] == Text(email)
  {
    var row := NewUser(username, hashed, firstName, lastName, email, photoUrl);
    if exists k :: k in rows && rows[k]["email"] == Text(email) {
      var k :| k in rows && rows[k]["email"] == Text(email);
      assert "email" in SCHEMA.unique;
    }
  }

  /** A projection of a stored row onto some of its columns holds exactly those columns. */
  lemma ProjectionKeys(row: Row, columns: set<string>)
    requires row.Keys == COLUMNS && columns <= COLUMNS
    ensures Project(row, columns).Keys == columns
  {
  }

  lemma ListedAreColumns()
    ensures LISTED <= COLUMNS && PROFILE <= COLUMNS
  {
  }

  /** `User.getAll`: every user, projected to username, names and email; never an error. */
  function GetAll(rows: Table.Rows): (r: Table.Rows)
    ensures r.Keys == rows.Keys
    ensures forall k :: k in r ==> r[k] == Project(rows[k], LISTED)
    ensures Table.Keyed(SCHEMA, rows) ==> forall k :: k in r ==> r[k].Keys == LISTED
  {
    var r := Table.Select(rows, row => true, LISTED);
    ListedAreColumns();
    assert Table.Keyed(SCHEMA, rows) ==> forall k :: k in r ==> r[k].Keys == LISTED by {
      if Table.Keyed(SCHEMA, rows) {
        forall k | k in r ensures r[k].Keys == LISTED {
          ProjectionKeys(rows[k], LISTED);
        }
      }
    }
    r
  }

  /** `User.get`: the five-field profile, or the empty list (None) when the username is absent. */
  function Get(rows: Table.Rows, username: string): (r: Option<Row>)
    ensures r.Some? <==> Text(username) in rows
    ensures r.Some? ==> r.value == Project(rows[Text(username)], PROFILE)
    ensures r.Some? && Table.Keyed(SCHEMA, rows) ==> r.value.Keys == PROFILE && "password" !in r.value
  {
    if Text(username) in rows then Some(Project(rows[Text(username)], PROFILE)) else None
  }

  /**
    * `DELETE FROM <table> WHERE username = $1 RETURNING *` on a database
    * whose user table is `users`: the reserved word `user` is a syntax error,
    * any other name but `users` an undefined table.
    */
  function DeleteFrom(table: string, rows: Table.Rows, username: string): (r: Result<Table.Outcome>)
    ensures table == "user" ==> r == Err(Store(SyntaxError))
    ensures table != "user" && table != TABLE ==> r == Err(Store(UndefinedTable))
    ensures table == TABLE ==> r.Ok? && r.value == Table.DeleteByKey(rows, Text(username))
  {
    if table == "user" then Err(Store(SyntaxError))
    else if table != TABLE then Err(Store(UndefinedTable))
    else Ok(Table.DeleteByKey(rows, Text(username)))
  }

  /**
    * As written, `User.delete` never removes a user: its statement fails
    * before it reaches any row, even when the username is stored, while the
    * statement on `users` removes exactly that row.
    */
  lemma DeleteAsWrittenRemovesNothing(rows: Table.Rows, username: string)
    requires Text(username) in rows
    ensures DeleteFrom(DELETE_TABLE_AS_WRITTEN, rows, username) == Err(Store(SyntaxError))
    ensures var fixed := DeleteFrom(TABLE, rows, username);
      fixed.Ok? && fixed.value.Done? && Text(username) !in fixed.value.rows
  {
  }

  /** The one user the seed data holds. */
  function Seeded(): Table.Rows {
    map[Text("testy") := NewUser("testy", "password", "test", "user", "mctest@gmail.com", Some("testuser.jpg"))]
  }

  /**
    * Updating testy's last name returns the whole stored row, password and
    * admin flag included, with only the last name changed.
    */
  lemma UpdateLastNameScenario(rows: Table.Rows)
    requires rows == Seeded()
    ensures Table.Valid(SCHEMA, rows)
    ensures var o := Table.Execute(SCHEMA, rows, UpdateStatement("testy", [("last_name", Text("mctest"))]));
      && o.Done?
      && o.row == NewUser("testy", "password", "test", "mctest", "mctest@gmail.com", Some("testuser.jpg"))
  {
    SeededValid(rows);
    SetOneColumn(rows, "testy", "last_name", Text("mctest"));
    RenamedRow(rows[Text("testy")]);
  }

  /**
    * The built statement setting one plainly named column outside every
    * UNIQUE constraint changes that one cell of a stored user.
    */
  lemma SetOneColumn(rows: Table.Rows, username: string, c: string, v: Value)
    requires Table.Valid(SCHEMA, rows) && Text(username) in rows
    requires c in COLUMNS && c !in SCHEMA.unique && UpdateText.Name(c) && !Private(c)
    ensures var o := Table.Execute(SCHEMA, rows, UpdateStatement(username, [(c, v)]));
      o == Table.Done(rows[Text(username)][c := v], rows[Text(username) := rows[Text(username)][c := v]])
  {
    var items: Items := [(c, v)];
    assert items[0].0 == c;
    SchemaNames();
    Table.ExecuteBuilt(SCHEMA, rows, items, Text(username));
    Table.UpdateOneColumn(SCHEMA, rows, Text(username), c, v);
  }

  lemma SeededValid(rows: Table.Rows)
    requires rows == Seeded()
    ensures Table.Valid(SCHEMA, rows) && Text("testy") in rows
  {
  }

  lemma RenamedRow(row: Row)
    requires row == NewUser("testy", "password", "test", "user", "mctest@gmail.com", Some("testuser.jpg"))
    ensures row["last_name" := Text("mctest")] == NewUser("testy", "password", "test", "mctest", "mctest@gmail.com", Some("testuser.jpg"))
  {
  }

  lemma SchemaNames()
    ensures UpdateText.Name(SCHEMA.name) && UpdateText.Name(SCHEMA.keyColumn)
  {
  }

  /**
    * The statement `User.update` runs, sqlForPartialUpdate("users", items,
    * "username", username): whenever the store can read it, it updates this
    * table at the given username.
    */
  function UpdateStatement(username: string, items: Items): (q: Query)
    ensures Table.Targets(SCHEMA, q)
    ensures UpdateText.ReadUpdate(q).Some? ==> UpdateText.ReadUpdate(q).value.key == Text(username)
  {
    SchemaNames();
    Table.BuiltTargets(SCHEMA, items, Text(username));
    SqlForPartialUpdate(SCHEMA.name, items, SCHEMA.keyColumn, Text(username))
  }

  /** The `users` table, changed in place by create, update and delete. */
  class UserTable {
    var rows: Table.Rows

    ghost predicate Valid()
      reads this
    {
      Table.Valid(SCHEMA, rows)
    }

    constructor ()
      ensures Valid() && rows == map[]
    {
      rows := map[];
    }

    /**
      * `User.create`: a stored username gives "Username or email taken.";
      * otherwise the row with `hash(password)` is inserted and its profile
      * returned. Only the username is checked first: a stored email fails the
      * insert itself.
      */
    method Create(username: string, password: string, firstName: string, lastName: string, email: string,
                  photoUrl: Option<string>, hash: string -> string)
      returns (r: Result<Row>)
      requires Valid()
      modifies this
      ensures Valid()
      ensures Text(username) in old(rows) ==> r == Err(Thrown(TAKEN)) && rows == old(rows)
      ensures r.Ok? <==> Text(username) !in old(rows) && forall k :: k in old(rows) ==> old(rows)[k]["email"] != Text(email)
      ensures r.Ok? ==>
        && rows == old(rows)[Text(username) := NewUser(username, hash(password), firstName, lastName, email, photoUrl)]
        && rows[Text(username)]["password"] == Text(hash(password))
        && r.value == Project(rows[Text(username)], PROFILE)
        && Get(rows, username) == Some(r.value)
      ensures r.Err? ==> rows == old(rows)
      ensures r.Err? && Text(username) !in old(rows) ==> r == Err(Store(UniqueViolation))
    {
      var existing := Table.Select(rows, row => "username" in row && row["username"] == Text(username), COLUMNS);
      if |existing| > 0 {
        var k :| k in existing;
        r := Err(Thrown(TAKEN));
        return;
      }
      assert Text(username) in rows ==> Text(username) in existing;
      var row := NewUser(username, hash(password), firstName, lastName, email, photoUrl);
      Table.InsertKeepsValid(SCHEMA, rows, row);
      ClashMeansEmailTaken(rows, username, hash(password), firstName, lastName, email, photoUrl);
      var o := Table.Insert(SCHEMA, rows, row);
      if o.Done? {
        rows := o.rows;
        r := Ok(Project(o.row, PROFILE));
      } else {
        r := Err(Store(o.error));
      }
    }

    /**
      * `User.update` as intended: runs the statement
      * sqlForPartialUpdate("users", items, "username", username) builds; the
      * whole updated row is returned, and no row with that username gives
      * "User not found.".
      */
    method Update(username: string, items: Items) returns (r: Result<Row>)
      requires Valid()
      modifies this
      ensures Valid()
      ensures var o := Table.Execute(SCHEMA, old(rows), UpdateStatement(username, items));
        && (o.NoRow? ==> r == Err(Thrown(USER_NOT_FOUND)) && rows == old(rows))
        && (o.Failed? ==> r == Err(Store(o.error)) && rows == old(rows))
        && (o.Done? ==> r == Ok(o.row) && rows == o.rows)
      ensures r == Err(Thrown(USER_NOT_FOUND)) ==> Text(username) !in old(rows)
      ensures r.Ok? ==> Text(username) in old(rows) && r.value.Keys == COLUMNS
      ensures UpdateText.Named(Fields(items)) ==>
        Table.Execute(SCHEMA, old(rows), UpdateStatement(username, items))
          == Table.UpdateByKey(SCHEMA, old(rows), Text(username), Fields(items))
      ensures var fields := Fields(items);
        UpdateText.Identifiers(fields) ==>
          && (r == Err(Thrown(USER_NOT_FOUND))
              <==> fields != [] && Columns(fields) <= COLUMNS && DistinctColumns(fields) && Text(username) !in old(rows))
          && (r.Ok? ==>
            && (forall c :: c in COLUMNS && c !in Columns(fields) ==> r.value[c] == old(rows)[Text(username)][c])
            && (forall i :: 0 <= i < |fields| ==> r.value[fields[i].0] == fields[i].1)
            && (forall k :: k in old(rows) && k != Text(username) ==> k in rows && rows[k] == old(rows)[k]))
    {
      var q := UpdateStatement(username, items);
      Table.ExecuteKeepsValid(SCHEMA, rows, q);
      SchemaNames();
      Table.ExecuteBuilt(SCHEMA, rows, items, Text(username));
      var o := Table.Execute(SCHEMA, rows, q);
      match o
      case NoRow => r := Err(Thrown(USER_NOT_FOUND));
      case Failed(e) => r := Err(Store(e));
      case Done(row, after) =>
        rows := after;
        r := Ok(row);
    }

    /** `User.update` as written: the same statement, but an absent username raises "Job not found.". */
    method UpdateAsWritten(username: string, items: Items) returns (r: Result<Row>)
      requires Valid()
      modifies this
      ensures Valid()
      ensures var o := Table.Execute(SCHEMA, old(rows), UpdateStatement(username, items));
        && (o.NoRow? ==> r == Err(Thrown(JOB_NOT_FOUND)) && rows == old(rows))
        && (o.Failed? ==> r == Err(Store(o.error)) && rows == old(rows))
        && (o.Done? ==> r == Ok(o.row) && rows == o.rows)
      ensures var fields := Fields(items);
        UpdateText.Identifiers(fields) ==>
          (r == Err(Thrown(JOB_NOT_FOUND))
           <==> fields != [] && Columns(fields) <= COLUMNS && DistinctColumns(fields) && Text(username) !in old(rows))
      ensures r != Err(Thrown(USER_NOT_FOUND))
    {
      r := Update(username, items);
      if r == Err(Thrown(USER_NOT_FOUND)) {
        r := Err(Thrown(JOB_NOT_FOUND));
      }
    }

    /** Carries out a DELETE statement's result: the keyed row goes when there was one. */
    method ApplyDelete(username: string, d: Result<Table.Outcome>) returns (r: Result<string>)
      requires Valid()
      requires d.Ok? ==> d.value == Table.DeleteByKey(rows, Text(username))
      modifies this
      ensures Valid()
      ensures d.Err? ==> r == Err(d.failure) && rows == old(rows)
      ensures d.Ok? ==> (r.Ok? <==> Text(username) in old(rows))
      ensures d.Ok? && r.Ok? ==> r.value == DELETED && rows == old(rows) - {Text(username)}
      ensures d.Ok? && r.Err? ==> r.failure == Thrown(USER_NOT_FOUND) && rows == old(rows)
    {
      match d
      case Err(f) => r := Err(f);
      case Ok(o) =>
        if o.Done? {
          Table.DeleteKeepsValid(SCHEMA, rows, Text(username));
          rows := o.rows;
          r := Ok(DELETED);
        } else {
          r := Err(Thrown(USER_NOT_FOUND));
        }
    }

    /**
      * `User.delete` as written: `DELETE FROM user ...` is rejected before it
      * reaches any row, so every call fails and no user is ever removed.
      */
    method DeleteAsWritten(username: string) returns (r: Result<string>)
      requires Valid()
      modifies this
      ensures Valid() && rows == old(rows)
      ensures r == Err(Store(SyntaxError))
    {
      r := ApplyDelete(username, DeleteFrom(DELETE_TABLE_AS_WRITTEN, rows, username));
    }

    /** `User.delete` on `users`: removes the keyed row only and answers "User deleted". */
    method Delete(username: string) returns (r: Result<string>)
      requires Valid()
      modifies this
      ensures Valid()
      ensures r.Ok? <==> Text(username) in old(rows)
      ensures r.Ok? ==> r.value == DELETED && rows == old(rows) - {Text(username)}
      ensures r.Err? ==> r.failure == Thrown(USER_NOT_FOUND) && rows == old(rows)
    {
      r := ApplyDelete(username, DeleteFrom(TABLE, rows, username));
    }
  }
}
